=== FILE: README.md ===
# gistconnect chat backend — a Dafny model

This project models the core of a Django chat backend and proves
properties of the model. The backend has one-to-one rooms, groups, a
WebSocket consumer, and accounts with e-mail one-time passwords. Every
operation is a pure function over an immutable snapshot of the tables it
touches. Errors are values (`Result`, `Check`, `Option`), not exceptions.
User ids are `nat`s, ordered as their UUID strings are. Times are whole
seconds.

| file | module | what it models |
|---|---|---|
| `outcomes.dfy` | `Outcomes` | `Option`, `Result`, `Check` and the HTTP statuses the views answer with |
| `text.dfy` | `Text` | ASCII `str.strip`, `str.lower`, `str.isdigit`, substring `in`, and the `iexact` comparison |
| `group_chat.dfy` | `GroupChat` | the group serializer validators and the group views: create, list, detail, soft delete, add member, admin remove, leave |
| `private_chat.dfy` | `PrivateChat` | `PrivateChatRoom.save`, messages, and the private views: start chat, delete (hide or destroy), chat list, fetch and mark read, unread counts |
| `consumer.dfy` | `Consumer` | `ChatConsumer`: the connect gate, `disconnect`, `receive`, and the channel layer's group fan-out |
| `accounts.dfy` | `Accounts` | the password validator, `UserManager`, `User.save`, `get_full_name`, and the registration, login and logout serializers |
| `otp.dfy` | `Otp` | `OneTimePassword.is_valid`, `generate_otp`, `create_otp_for_user`, the expiry sweep, and OTP verify and resend |

Outside effects are parameters:
- Django's `authenticate` and the JWT refresh-token parser are oracle functions.
- A failing database write is a `saveFails` flag.
- The current time is an argument.
- `generate_otp` chooses each digit nondeterministically.
- The id of a new row is an argument, or the table's next key.

## Behaviour worth knowing

- **Who may add members.** Only `can_invite_others` is checked (chat/views/group_views.py:75); being an admin alone does not let a member add others. `GroupChat.AddMember` does the same.
- **Leaving.** Every admin is refused a leave (chat/views/group_views.py:165), not only the last one. `GroupChat.Leave` refuses every admin.
- **Self-removal.** An admin removing themselves is answered 400 (chat/views/group_views.py:143-144).
- **Room keys in the socket path.** The socket route accepts any `\w+` segment. `int()` then turns it into a room key, so `ws/chat/007/` and `ws/chat/7/` reach the same room. The group name is built from the raw segment, so the two sockets join different broadcast groups. `Consumer.LeadingZeroAliases` and `Consumer.AliasesDoNotHearEachOther` state this.

## Model

| member | source | states |
|---|---|---|
| Text.Strip | chat/serializers/group_chat.py:105 | the result is a contiguous slice of the input. It neither starts nor ends with whitespace, and only whitespace is cut off on either side |
| Text.StripEmptyIffAllSpace | account/serializers.py:150 | `not value.strip()` holds exactly when every character of the value is whitespace |
| Text.StripIdempotent | chat/serializers/group_chat.py:105 | stripping a stripped string changes nothing |
| Text.Lower | account/serializers.py:36 | lower-casing keeps the length, lower-cases each character in place and leaves no upper-case letter |
| Text.LowerIdempotent | account/models.py:85 | lower-casing twice is lower-casing once |
| Text.EmptyIsContained | account/validators.py:39 | the empty string occurs in every string ignoring case, so a containment rule with an empty needle always fires |
| GroupChat.ValidateName | chat/serializers/group_chat.py:104-119 | a name is accepted exactly when, once stripped, it is 2 to 20 characters and not all digits; the result is the stripped name. Each error holds exactly when its check is the first to fail, in the order empty, numeric, too long, too short |
| GroupChat.ValidateNameIdempotent | chat/serializers/group_chat.py:104-119 | validating an accepted name again accepts it unchanged |
| GroupChat.ValidateDescription | chat/serializers/group_chat.py:123-130 | a missing description passes through. A present one is refused exactly when its stripped form exceeds 300 characters, becomes missing when it strips to nothing, and is otherwise kept stripped |
| GroupChat.ValidateIsPrivate | chat/serializers/group_chat.py:132-135 | only a boolean is accepted, and it is kept unchanged |
| GroupChat.ValidateGroup | chat/serializers/group_chat.py:137-155 | without a requester everything passes. A creation is refused exactly when the requester already has 10 active groups; updates are exempt. Otherwise a non-empty name is refused exactly when another active group of the requester, not the one being updated, has it up to case |
| GroupChat.FieldErrorsOf | chat/serializers/group_chat.py:104-135 | every failing field is reported together: the list holds a name, description or privacy error exactly when that field's validator refuses with it, so it is empty exactly when all three pass; the empty-name error is reported exactly when the name strips to nothing |
| GroupChat.ValidateInput | chat/serializers/group_chat.py:137-155 | `validate` runs only when no field failed. Accepted data has a well-formed stripped name, the validated description, the given or default flags, and passed `validate`. Field errors are exactly the fields that failed, and a malformed name always yields field errors |
| GroupChat.ListGroups | chat/views/group_views.py:22-28 | the listing holds only stored, active groups the user is a member of |
| GroupChat.ListedIffVisible | chat/views/group_views.py:23-26 | a group is listed for a user exactly when the detail view would show it to that user |
| GroupChat.CreateGroup | chat/views/group_views.py:30-41 | a group is created exactly when the serializer accepts the input; otherwise the answer is 400 with the serializer's errors and nothing changes. A created group gets the new id, the requester as creator, the stripped name, the validated description, and the given or default privacy and active flags. Exactly one new membership (the creator, as an inviting admin) is added. It was under the cap, and its name was not taken |
| GroupChat.CreateMakesCreatorSoleAdmin | chat/views/group_views.py:33-39 | after a creation the new group has exactly one member, its creator, an admin who may invite, and the tables stay consistent |
| GroupChat.CreateRespectsCap | chat/serializers/group_chat.py:143-145 | after a successful creation the creator has at most 10 active groups |
| GroupChat.CreateKeepsNamesUnique | chat/serializers/group_chat.py:148-153 | creation keeps each creator's active group names distinct up to case |
| GroupChat.DetailGet | chat/views/group_views.py:50-56 | the group is returned exactly when it is stored, active, and the user is a member. A missing or inactive group is not found (404), and a non-member is refused (403) |
| GroupChat.DetailDelete | chat/views/group_views.py:50-63 | a missing or inactive group is not found (404) and a non-creator is refused (403), both with no change. The delete succeeds exactly when the group is stored, active and the requester created it, and then only clears `is_active`, leaving memberships and users alone |
| GroupChat.DeleteKeepsNamesUnique | chat/views/group_views.py:61-62 | a soft delete keeps active names unique per creator |
| GroupChat.ValidateUserId | chat/serializers/group_chat.py:37-48 | an id is accepted exactly when it is not the requester's and names an existing user |
| GroupChat.ValidateRole | chat/serializers/group_chat.py:50-53 | a role is accepted exactly when it is a key of the role choices |
| GroupChat.ValidateMembership | chat/serializers/group_chat.py:55-75 | without a group everything passes. An existing membership other than the updated row is refused first; only then is a full group refused |
| GroupChat.AddMember | chat/views/group_views.py:70-87 | an unknown group is not found. A requester who is not a member allowed to invite is refused (the only 403). Every error changes nothing. When the requester may invite, failing member fields are answered with exactly their errors; only when the fields pass is the membership check's error (already a member before full group) answered. The add succeeds exactly when the requester may invite and `user_id` is a UUID naming a user that exists, is not yet a member, the group is not full and any role given is valid. It then adds exactly that one membership, with the requested role and invite flag or their defaults |
| GroupChat.MemberFieldErrors | chat/serializers/group_chat.py:21-53 | with only the group in context, the member fields fail exactly for a missing `user_id`, a `user_id` that is not a UUID, an unknown user or a role outside the choices, and never for the requester's own id |
| GroupChat.AddKeepsCapacity | chat/serializers/group_chat.py:71-73 | adding a member never pushes any group past its member limit |
| GroupChat.SelfAddRefused | chat/views/group_views.py:74-85 | adding oneself is always refused |
| GroupChat.BadUserIdRefused | chat/views/group_views.py:82-84 | from a requester who may invite, a body whose `user_id` is missing or not a UUID is answered 400 with that field's error, and nothing is stored |
| GroupChat.RemoveMember | chat/views/group_views.py:114-147 | each error holds exactly when its check is the first to fail, in the order unknown group, missing `user_id`, requester not a member, requester not admin, target not a member, target is the requester; the answer is 403 exactly when a given `user_id` meets a requester who is not an admin. Errors change nothing. The removal succeeds exactly when every check passes, and removes exactly the target's membership |
| GroupChat.RemoveKeepsAdmin | chat/views/group_views.py:130-146 | a group with an admin still has one after any remove |
| GroupChat.Leave | chat/views/group_views.py:157-170 | unknown group and non-member are not found and an admin is refused (the only 403), all with no change. The leave succeeds exactly when the requester is a member but not an admin, and removes exactly the requester's own membership |
| GroupChat.LeaveKeepsAdmin | chat/views/group_views.py:165-169 | a group with an admin still has one after any leave |
| PrivateChat.Save | chat/models.py:24-28 | after `save` the lower id comes first. The participants are swapped exactly when they were out of order, and nothing else changes |
| PrivateChat.OrderPair | chat/views/private_views.py:42 | the pair is ordered and holds exactly the two users |
| PrivateChat.OrderPairSymmetric | chat/views/private_views.py:42 | both argument orders give the same pair |
| PrivateChat.SaveKeepsViewOrder | chat/models.py:24-28 | a pair ordered by the view is stored unchanged, so view and model agree on the canonical order |
| PrivateChat.NewMessage | chat/models.py:31-37 | a new message is unread and not archived, and carries the given room, sender, content and time |
| PrivateChat.AppendMessage | chat/consumers.py:105-115 | storing a message appends exactly that new message under the next key and changes nothing else |
| PrivateChat.AppendKeepsChronological | chat/models.py:39-40 | with a clock that does not go backwards, storage order stays timestamp order |
| PrivateChat.AppendKeepsValid | chat/models.py:32 | a message stored in an existing room keeps every message attached to a stored room, with distinct keys |
| PrivateChat.FindRoom | chat/views/private_views.py:56-59 | the lookup finds a room with the key, and finds none exactly when no stored room has it |
| PrivateChat.FindPair | chat/views/private_views.py:44-47 | the lookup of `get_or_create` finds a room of the ordered pair, and finds none exactly when no stored room has that pair |
| PrivateChat.FindRoomUnique | chat/views/private_views.py:57 | with unique keys the lookup finds the one room holding the key |
| PrivateChat.StartChat | chat/views/private_views.py:20-50 | each error holds exactly when its check is the first to fail (missing id, malformed id, self, unknown user) and changes nothing; only the unknown user is a 404. Past the checks, the room of the ordered pair is created, unhidden and under the next key, exactly when no room for the pair exists, and otherwise nothing changes. This corrected view answers with that room; the code as written answers 500 instead (see Findings) |
| PrivateChat.StartChatAsWritten | chat/views/private_views.py:20-50 | as written, a request that passes the checks is answered 500 exactly when the other user exists and is not the requester. The tables change exactly as in the corrected view, and the refusals are the same |
| PrivateChat.StartChatAsWrittenFails | chat/views/private_views.py:44-50 | for any two distinct users the start answers 500 although the pair's room is stored, and every later start answers 500 again without changing anything |
| PrivateChat.StartChatAsWrittenExample | chat/views/private_views.py:44-50 | with users 1 and 2 and no rooms, user 1 starting a chat with user 2 answers 500 and leaves room 1 for the pair stored |
| PrivateChat.StartChatSymmetric | chat/views/private_views.py:42-47 | starting a chat from either side gives the same answer and the same tables |
| PrivateChat.StartChatKeepsValid | chat/models.py:17 | starting a chat keeps at most one room per participant pair, and the tables consistent |
| PrivateChat.StartChatIdempotent | chat/views/private_views.py:44-47 | once started, starting again from either side finds the same room, does not create one, and changes nothing. The corrected view would answer 200 with that room |
| PrivateChat.MessagesOutside | chat/models.py:32 | keeps exactly the messages of other rooms |
| PrivateChat.DestroyRoom | chat/models.py:32 | deleting a room removes it and, by cascade, exactly its messages |
| PrivateChat.DeleteRoom | chat/views/private_views.py:55-76 | an unknown room is not found (404) and a non-participant is refused (403), both with no change. Otherwise only the caller's flag is set. The room and its messages are destroyed exactly when both flags are then set; otherwise the room is hidden |
| PrivateChat.DeleteFlagsOnlyRise | chat/views/private_views.py:63-76 | every room left after a delete was there before with the same key and pair, and every flag it had is still set |
| PrivateChat.DeleteKeepsValid | chat/views/private_views.py:70-76 | after a delete no room is hidden on both sides and no message outlives its room |
| PrivateChat.DestroyCascades | chat/models.py:32 | once a room is destroyed, none of its messages remain |
| PrivateChat.VisibleTo | chat/views/private_views.py:84-87 | the filter lets a room through for a user exactly when the user is a participant whose own side has not hidden it |
| PrivateChat.UserChats | chat/views/private_views.py:83-89 | the list holds exactly the rooms where the user is a participant whose side has not hidden the room |
| PrivateChat.RestartDoesNotUnhide | chat/views/private_views.py:44-47 | starting again a chat one has hidden does not bring it back into one's list |
| PrivateChat.UnreadCount | chat/serializers/one_to_one.py:27-29 | the count is at most the room's size. It is zero exactly when no message of the room is both unread and sent by someone else |
| PrivateChat.OwnMessagesNeverUnread | chat/serializers/one_to_one.py:29 | messages sent by the viewer never change the viewer's count |
| PrivateChat.TotalUnread | chat/views/private_views.py:119-128 | the total never exceeds the number of messages |
| PrivateChat.SumOfRoomCountsIsTotal | chat/views/private_views.py:120-126 | the per-room counts of the user's chat list add up to the user's total |
| PrivateChat.MarkRead | chat/views/private_views.py:107 | every unread message of the room sent by the other side becomes read, and every other message stays exactly as it was |
| PrivateChat.MarkReadIdempotent | chat/views/private_views.py:107 | marking read twice has no further effect |
| PrivateChat.MarkReadClearsUnread | chat/views/private_views.py:107 | after marking, the reader's count for that room is zero |
| PrivateChat.MarkReadLeavesOthers | chat/views/private_views.py:107 | marking leaves the count of every other room, and of the other participant, untouched |
| PrivateChat.Insert | chat/views/private_views.py:110 | inserting into a newest-first list keeps it newest first and adds exactly that message |
| PrivateChat.SortNewestFirst | chat/views/private_views.py:110 | the result is newest first and is a permutation of the input |
| PrivateChat.MessagesOf | chat/views/private_views.py:110 | exactly the messages of the room, as many as the room holds |
| PrivateChat.GetMessages | chat/views/private_views.py:96-113 | an unknown room is not found (404) and a non-participant is refused (403), both marking nothing. A participant marks the room read and receives exactly the room's messages, newest first |
| PrivateChat.FetchClearsUnread | chat/views/private_views.py:107-110 | after a fetch the reader's count for the room is zero, and fetching again changes nothing |
| PrivateChat.UserChatsDistinct | chat/views/private_views.py:84-87 | the listed rooms have distinct keys and pairs |
| Consumer.GroupName | chat/consumers.py:15 | the group name is `chat_` followed by the raw path segment |
| Consumer.GroupNameInjective | chat/consumers.py:15 | two segments share a group exactly when they are equal |
| Consumer.ParseRoomId | chat/consumers.py:97 | a segment names a room key exactly when it is an integer literal that Python's `int()` accepts |
| Consumer.ParseShow | chat/consumers.py:97 | every key is reached by its canonical decimal spelling |
| Consumer.LeadingZeroAliases | chat/consumers.py:14-15 | a leading zero names the same room but a different group |
| Consumer.GetConversation | chat/consumers.py:93-103 | a room is found exactly when the segment parses and a room with that key is stored, and it is that room |
| Consumer.InConversation | chat/consumers.py:117-129 | yes exactly when the room exists and the user is one of its two participants |
| Consumer.Connect | chat/consumers.py:12-42 | the connection always records the room name. The socket is either closed, leaving the layer alone, or joins the group and then is accepted. Acceptance needs an authenticated participant, and adds exactly that subscription |
| Consumer.ConnectAdmitsExactlyParticipants | chat/consumers.py:19-41 | with unique keys the gate accepts exactly the participants of the room the segment names |
| Consumer.Disconnect | chat/consumers.py:44-50 | disconnect leaves the group whenever connect ran, accepted or not, and does nothing otherwise |
| Consumer.ConnectThenDisconnect | chat/consumers.py:44-50 | a connect followed by its disconnect restores the layer and always asks to leave the group |
| Consumer.Receive | chat/consumers.py:52-82 | the tables change exactly when something is sent. A send needs an authenticated user, a JSON object with a message, an existing room and a successful save. It then stores exactly one message and broadcasts its saved content, sender and time to the connection's group. Every case meeting those conditions sends |
| Consumer.ReceiveKeepsValid | chat/consumers.py:63-68 | receiving keeps the tables consistent |
| Consumer.ReceiveStoresOnlyParticipantMessages | chat/consumers.py:63-68 | on an accepted connection every stored message is sent by a participant of its room, though receive does not re-check |
| Consumer.DeleteKeepsParticipants | chat/views/private_views.py:63-76 | a delete never changes the pair behind a room key, so an open socket stays confined to its pair |
| Consumer.ToFrame | chat/consumers.py:84-89 | the frame carries exactly the event's message, sender and time |
| Consumer.Fanout | chat/consumers.py:70-78 | exactly the channels subscribed to the group receive the event's frame |
| Consumer.SenderHearsOwnMessage | chat/consumers.py:68-78 | after an accepted connect, a stored message is echoed to the sender's own channel with the stored content |
| Consumer.AliasesDoNotHearEachOther | chat/consumers.py:70-78 | a socket on an aliased spelling of the room key never receives the other spelling's broadcasts |
| Accounts.ValidatePassword | account/validators.py:7-53 | a password passes exactly when every rule holds. A refusal names a rule the password breaks, and every earlier rule holds. The too-short code is reported exactly when the password has fewer than 10 characters |
| Accounts.UserRulesOnlyNarrow | account/validators.py:38 | giving a user can only add refusals. Without a user a password passes exactly when it has 10 characters and an upper-case letter, a lower-case letter, a digit and a special character |
| Accounts.EmptyEmailRefusesAll | account/validators.py:39-43 | a user with an empty e-mail has every otherwise acceptable password refused for containing the e-mail |
| Accounts.NormalizeEmail | account/models.py:28 | with an `@` in the stripped address, the domain after the last `@` is lower-cased and the rest kept; otherwise the input is returned as given |
| Accounts.LowerOfNormalized | account/models.py:28 | normalizing then lower-casing is lower-casing the stripped address when it has an `@`, and the raw one otherwise |
| Accounts.SaveUser | account/models.py:84-86 | `save` changes only the e-mail, which matches the old one up to case and has no upper-case letter |
| Accounts.SaveIdempotent | account/models.py:84-86 | saving twice stores what saving once does |
| Accounts.CreateUser | account/models.py:15-33 | each error holds exactly when its field is the first one empty, in the order e-mail, first name, last name, username. A created user keeps the given names and password, is active, unprivileged and unverified, and has a lower-case e-mail |
| Accounts.CreateUserEmail | account/models.py:28 | the stored e-mail is the lower-cased stripped input when that has an `@`, and the lower-cased raw input otherwise |
| Accounts.CreateSuperuser | account/models.py:36-42 | fails exactly when `create_user` fails, with the same error. Otherwise it is the `create_user` user made superuser, staff and verified |
| Accounts.FullName | account/models.py:73-74 | the full name is the first name, one space, the last name |
| Accounts.ValidateRegistrationEmail | account/serializers.py:35-40 | an address is refused exactly when a registered one matches it up to case. An accepted one comes back lower-cased |
| Accounts.RegistrationFieldErrors | account/serializers.py:14-25 | there is no field error exactly when all fields are present, the e-mail and username are unused, and the password passes the validator |
| Accounts.Register | account/serializers.py:14-53 | field errors are reported exactly when some field fails, and then they are exactly the fields' errors, and differing passwords are refused exactly when the fields pass. The second validator run never refuses. A new user has the lower-cased unused e-mail, the given names and password, and default flags |
| Accounts.RegisterKeepsEmailsDistinct | account/serializers.py:35-40 | registration keeps addresses distinct up to case |
| Accounts.Login | account/serializers.py:61-82 | each error holds exactly when its check is the first to fail, in the order missing credentials, failed authentication, inactive, unverified. Success yields the authenticated user and the lower-cased e-mail |
| Accounts.LoginIgnoresEmailCase | account/serializers.py:65-66 | login gives the same answer for e-mails that differ only in case |
| Accounts.ValidateRefresh | account/serializers.py:148-158 | a blank value is refused exactly when it is all whitespace. Otherwise the value is accepted unchanged exactly when it parses as a refresh token |
| Accounts.BlankRefreshNeverParsed | account/serializers.py:150-151 | a blank token is refused whatever the token parser would say |
| Otp.IsValid | account/models.py:141-144 | a code is valid exactly when the expiry sweep would keep it |
| Otp.ValidityWindow | account/models.py:141-144 | a code is valid from its creation through exactly five minutes later, and not a second after |
| Otp.OtpOf | account/models.py:134 | finds a row of the user exactly when the user has one |
| Otp.GenerateOtp | account/utils.py:12-14 | the code is six characters, all decimal digits |
| Otp.Upsert | account/utils.py:35-41 | afterwards the user's OTP is exactly the new one, no other user's OTP changes, and no other row appears |
| Otp.UpsertKeepsOnePerUser | account/models.py:134 | the upsert keeps at most one OTP per user |
| Otp.FindUserByEmail | account/utils.py:25 | finds a user with exactly this e-mail, and none exactly when no user has it |
| Otp.CreateOtpForUser | account/utils.py:19-52 | an unknown user, or a verified and active one, is refused with no write and no mail. Otherwise success comes exactly when the write succeeds. The user's single OTP then holds the new six-digit code stamped now, no other OTP changes, and the mail carries that same code |
| Otp.Cleanup | account/tasks.py:56-63 | keeps exactly the rows not created before five minutes ago, and reports exactly how many it deleted |
| Otp.CleanupKeepsExactlyValid | account/tasks.py:61-62 | a row survives the sweep exactly when `is_valid` holds at the same time. A row exactly five minutes old survives |
| Otp.CleanupIdempotent | account/tasks.py:61-62 | a second sweep at the same time deletes nothing |
| Otp.KeepAllWhenNoneExpired | account/tasks.py:61-62 | when nothing is expired the table is kept as it is |
| Otp.VerifyCode | account/serializers.py:88-113 | each error holds exactly when its check is the first to fail, in the order wrong length, non-digits, no row, several rows. For a well-formed code held by exactly one row: an expired row is deleted and the code refused as expired; a valid row of a verified user is refused as already verified; a valid row of an unverified user is accepted. Only the expired case changes the tables |
| Otp.SweptCodesNeverExpired | account/serializers.py:103-105 | after a sweep at the same time, verification never meets an expired code |
| Otp.FreshCodeVerifies | account/serializers.py:98-113 | a code just stored for an unverified user, held by no other row, is accepted within five minutes and changes nothing |
| Otp.Resend | account/serializers.py:118-138 | each error holds exactly when its check is the first to fail, in the order unknown user, verified user, OTP under a minute old. Success yields that unverified user |
| Otp.CreateThenResend | account/serializers.py:128-132 | after a code is created, a resend is refused within the minute and allowed from the minute on |

## Findings

| source | as written | input that shows it | evidently intended | confidence | as-written member | corrected member |
|---|---|---|---|---|---|---|
| chat/views/private_views.py:49 with chat/serializers/one_to_one.py:27-29 | `PrivateChatRoomSerializer(room)` is built without a context. Rendering it calls `get_unread_count`, which reads `self.context['request']`, so a `KeyError` is raised and the view answers 500 after the room is stored | users 1 and 2, no rooms; user 1 posts `user_id` of user 2 | pass `context={'request': request}`, as `get_user_chats` does at line 88, and answer 201 or 200 with the room | high, not executed | PrivateChat.StartChatAsWritten, PrivateChat.StartChatAsWrittenFails, PrivateChat.StartChatAsWrittenExample | PrivateChat.StartChat, PrivateChat.StartChatIdempotent |

## Left out

- `update_member_role` (chat/views/group_views.py:93-108) is not modelled as a role change. It builds a serializer without data and then calls `is_valid`, so it never changes a role.
- The `GroupChatRoomSerializer` in chat/serializers/one_to_one.py:66-86 is left out. Its `Meta` sets `models` rather than `model`, and its `validate_name` sits inside `Meta`. The views import `GroupChatRoomSerializer` from the `chat.serializers` package (chat/views/group_views.py:10), whose `__init__` is not part of this model; they are taken to use the class in chat/serializers/group_chat.py.
- The group models (`GroupChatRoom`, `GroupMember`) and `GroupChatConsumer` are not part of this model. What the views use of them is the `Config` parameter: the member limit behind `is_full`, the `ROLE_CHOICES` keys and the field defaults.
- Concurrency is left out: the channel layer's delivery order, `database_sync_to_async`, and races between `get_or_create`, the capacity check and concurrent sockets. Every operation is one sequential step.
- Foreign calls are oracles or flags:
  - `authenticate`, the JWT `RefreshToken` parser and blacklisting are oracles;
  - the Mailgun mail job is the `OtpMail` value handed to the queue;
  - Celery scheduling is not modelled;
  - database errors are `saveFails`.
- GroupChat.ValidateInput: DRF's `BooleanField` coercion of `is_private` is left out. The framework turns strings such as `"true"` or `"1"` and the numbers 1 and 0 into booleans before `validate_is_private` runs; the model hands `validate_is_private` the raw request value, so it refuses those inputs with `NotABoolean`. The field class comes from the group model and the accepted spellings from the DRF version, and neither is part of this model.
- GroupChat.RemoveMember: a `user_id` that is not a well-formed UUID (say `"abc"`) makes the lookup at chat/views/group_views.py:138 raise a `ValidationError` nobody catches, so the view answers 500. The model's `target` is an already parsed id, so it cannot express this input.
- PrivateChat.StartChat: a truthy `user_id` that is not a string (say `5` or `true`) makes `uuid.UUID` raise `AttributeError`, which `except ValueError` does not catch (chat/views/private_views.py:28-31), so the view answers 500. The model's `UserIdField` counts every unparseable value as `Malformed` and answers 400 instead.
- PrivateChat.StartChatAsWritten: assumes requests are not wrapped in a transaction (`ATOMIC_REQUESTS`). The project settings are not part of this model; with that setting the 500 would also roll the new room back.
- Accounts.Login: the inactive-account branch depends on the `authenticate` oracle. Django's default backend already rejects inactive users.
- Password hashing is left out: `set_password` is modelled as storing the password given.
- The user-table insertion of `create_user` is left out: `Accounts.CreateUser` returns the saved user.
- Several value encodings are left out:
  - UUID parsing and formatting: `str(user.id)` in the broadcast, and the `user_id` field is already a parsed `UserIdField`;
  - ISO timestamp formatting;
  - JSON `message` values that are not strings.
- DRF field handling is simplified:
  - a missing or blank required string field is an empty string (the `user_id` UUID fields are modelled as parsed or unparsed values instead);
  - the `max_length` validators and e-mail format validation of the serializers are left out;
  - DRF's trimming of `CharField` input is left out.
- The password validator configured in the project's settings is assumed to be `CustomPasswordValidator` alone.
- Ordering of the private chat list (`-created_at`) is left out. `PrivateChat.UserChats` keeps table order.
- Strings are ASCII. `\w`, `int()`, `str.isdigit` and `str.lower` also accept or change non-ASCII characters, which the model does not cover.
- The profile serializer and views, the admin modules, the URL configuration, and the duplicate copies of the private views and serializers are left out.

=== FILE: accounts.dfy ===
/** Accounts: the password validator of `account/validators.py`, the
    `User` model and its manager from `account/models.py`, and the
    registration, login and logout serializers of
    `account/serializers.py`. */
module Accounts {
  import opened Outcomes
  import opened Text

  /** User keys are UUIDs; a `nat` stands for one. */
  type UserId = nat

  /** A `User` row. `password` is the password handed to `set_password`,
      or `None` for an unusable password; hashing is not modelled. */
  datatype User = User(
    id: UserId,
    email: string,
    firstName: string,
    lastName: string,
    username: string,
    password: Option<string>,
    isActive: bool,
    isStaff: bool,
    isSuperuser: bool,
    isVerified: bool)

  // ---------------------------------------------------------------
  // CustomPasswordValidator
  // ---------------------------------------------------------------

  const MinPasswordLength := 10

  /** The characters of the validator's special-character class. */
  const Specials := "!@#$%^&*(),.?\":{}|<>"

  predicate HasUpper(s: string) { exists i | 0 <= i < |s| :: IsUpper(s[i]) }
  predicate HasLower(s: string) { exists i | 0 <= i < |s| :: IsLower(s[i]) }
  predicate HasDigit(s: string) { exists i | 0 <= i < |s| :: IsDigit(s[i]) }
  predicate HasSpecial(s: string) { exists i | 0 <= i < |s| :: s[i] in Specials }

  /** The validator's rules, in the order it checks them, each named by
      the error code it raises. */
  datatype PasswordError =
    | TooShort
    | NoUppercase
    | NoLowercase
    | NoDigit
    | NoSpecial
    | ContainsEmail
    | ContainsFirstName
    | ContainsLastName

  /** The position of a rule in the checking order. */
  function Rank(e: PasswordError): nat {
    match e
    case TooShort => 0
    case NoUppercase => 1
    case NoLowercase => 2
    case NoDigit => 3
    case NoSpecial => 4
    case ContainsEmail => 5
    case ContainsFirstName => 6
    case ContainsLastName => 7
  }

  /** The password meets rule `e`. The rules about the user apply only
      when a user is given, and the name rules only to a non-empty name;
      containment ignores case. */
  predicate Meets(e: PasswordError, password: string, user: Option<User>) {
    match e
    case TooShort => |password| >= MinPasswordLength
    case NoUppercase => HasUpper(password)
    case NoLowercase => HasLower(password)
    case NoDigit => HasDigit(password)
    case NoSpecial => HasSpecial(password)
    case ContainsEmail => user.None? || !ContainsIgnoringCase(password, user.value.email)
    case ContainsFirstName =>
      user.None? || user.value.firstName == [] || !ContainsIgnoringCase(password, user.value.firstName)
    case ContainsLastName =>
      user.None? || user.value.lastName == [] || !ContainsIgnoringCase(password, user.value.lastName)
  }

  /** `CustomPasswordValidator.validate`: passes exactly when every rule
      is met, and otherwise reports the first rule, in checking order,
      that the password breaks. */
  function ValidatePassword(password: string, user: Option<User>): (r: Check<PasswordError>)
    ensures r.Pass? ==> forall e :: Meets(e, password, user)
    ensures r.Fail? ==> !Meets(r.error, password, user)
    ensures r.Fail? ==> forall e :: Rank(e) < Rank(r.error) ==> Meets(e, password, user)
    ensures r == Fail(TooShort) <==> |password| < MinPasswordLength
  {
    if |password| < MinPasswordLength then Fail(TooShort)
    else if !HasUpper(password) then Fail(NoUppercase)
    else if !HasLower(password) then Fail(NoLowercase)
    else if !HasDigit(password) then Fail(NoDigit)
    else if !HasSpecial(password) then Fail(NoSpecial)
    else if user.None? then Pass
    else if ContainsIgnoringCase(password, user.value.email) then Fail(ContainsEmail)
    else if user.value.firstName != [] && ContainsIgnoringCase(password, user.value.firstName) then Fail(ContainsFirstName)
    else if user.value.lastName != [] && ContainsIgnoringCase(password, user.value.lastName) then Fail(ContainsLastName)
    else Pass
  }

  /** Without a user only the length and composition rules apply; giving
      a user can only add reasons to refuse. */
  lemma UserRulesOnlyNarrow(password: string, u: User)
    ensures ValidatePassword(password, Some(u)).Pass? ==> ValidatePassword(password, None).Pass?
    ensures ValidatePassword(password, None).Pass? <==>
      |password| >= MinPasswordLength && HasUpper(password) && HasLower(password) &&
      HasDigit(password) && HasSpecial(password)
  {
    if ValidatePassword(password, Some(u)).Pass? {
      assert forall e :: Meets(e, password, None) by {
        forall e ensures Meets(e, password, None) {
          assert Meets(e, password, Some(u));
        }
      }
    }
    if ValidatePassword(password, None).Fail? {
      var e := ValidatePassword(password, None).error;
      assert !Meets(e, password, None);
    }
  }

  /** The email rule has no non-empty guard: a user with an empty email
      has every password that passes composition refused. */
  lemma EmptyEmailRefusesAll(password: string, u: User)
    requires u.email == []
    requires ValidatePassword(password, None).Pass?
    ensures ValidatePassword(password, Some(u)) == Fail(ContainsEmail)
  {
    EmptyIsContained(password);
    assert Meets(TooShort, password, None) && Meets(NoUppercase, password, None);
    assert Meets(NoLowercase, password, None) && Meets(NoDigit, password, None);
    assert Meets(NoSpecial, password, None);
  }

  // ---------------------------------------------------------------
  // UserManager and User
  // ---------------------------------------------------------------

  /** The position of the last `@` in `s`, if any. */
  function LastAt(s: string): (r: Option<nat>)
    ensures r.None? <==> '@' !in s
    ensures r.Some? ==> r.value < |s| && s[r.value] == '@' && forall k :: r.value < k < |s| ==> s[k] != '@'
  {
    if s == [] then None
    else if s[|s| - 1] == '@' then Some(|s| - 1)
    else LastAt(s[..|s| - 1])
  }

  /** Django's `BaseUserManager.normalize_email`: when the stripped value
      contains `@`, it is split at the last `@` and the domain part is
      lower-cased; otherwise the value is returned as given, unstripped. */
  function NormalizeEmail(email: string): (r: string)
    ensures '@' !in Strip(email) ==> r == email
    ensures '@' in Strip(email) ==> r == LowerDomain(Strip(email), LastAt(Strip(email)).value)
  {
    var t := Strip(email);
    match LastAt(t)
    case None => email
    case Some(i) => LowerDomain(t, i)
  }

  /** `t`, which has an `@` at position `i`, with everything after that
      position lower-cased: the length and everything up to the `@` are
      kept. */
  function LowerDomain(t: string, i: nat): (r: string)
    requires i < |t| && t[i] == '@'
    ensures |r| == |t| && r[..i + 1] == t[..i + 1]
    ensures forall k :: i < k < |r| ==> r[k] == LowerChar(t[k])
  {
    var r := t[..i] + "@" + Lower(t[i + 1..]);
    assert r[..i + 1] == t[..i] + "@";
    assert t[..i + 1] == t[..i] + [t[i]];
    assert forall k :: i < k < |r| ==> r[k] == Lower(t[i + 1..])[k - i - 1];
    r
  }

  /** Lower-casing a normalized address gives the stripped address in
      lower case when it has an `@`, and the raw one otherwise. */
  lemma LowerOfNormalized(email: string)
    ensures Lower(NormalizeEmail(email)) == if '@' in Strip(email) then Lower(Strip(email)) else Lower(email)
  {
    var t := Strip(email);
    if '@' in t {
      LowerAfterLowerDomain(t, LastAt(t).value);
    }
  }

  lemma LowerAfterLowerDomain(t: string, i: nat)
    requires i < |t| && t[i] == '@'
    ensures Lower(LowerDomain(t, i)) == Lower(t)
  {
    var n := LowerDomain(t, i);
    forall k | 0 <= k < |t| ensures Lower(n)[k] == Lower(t)[k] {
      if k <= i {
        assert n[k] == n[..i + 1][k];
        assert t[k] == t[..i + 1][k];
      }
    }
  }

  /** `User.save`: the e-mail address is lower-cased and nothing else
      changes. */
  function SaveUser(u: User): (r: User)
    ensures r == u.(email := r.email)
    ensures EqualsIgnoringCase(r.email, u.email)
    ensures forall k :: 0 <= k < |r.email| ==> !IsUpper(r.email[k])
  {
    LowerIdempotent(u.email);
    u.(email := Lower(u.email))
  }

  /** Saving twice stores what saving once does. */
  lemma SaveIdempotent(u: User)
    ensures SaveUser(SaveUser(u)) == SaveUser(u)
  {
    LowerIdempotent(u.email);
  }

  datatype CreateUserError = EmailRequired | FirstNameRequired | LastNameRequired | UsernameRequired

  /** `UserManager.create_user`: refuses an empty e-mail, first name, last
      name or username, checked in that order; otherwise saves a new
      active, unprivileged, unverified user with the given names and
      password and a lower-case e-mail that matches the input's ignoring
      case. */
  function CreateUser(email: string, firstName: string, lastName: string, username: string,
                      password: Option<string>, id: UserId): (r: Result<User, CreateUserError>)
    ensures r == Err(EmailRequired) <==> email == []
    ensures r == Err(FirstNameRequired) <==> email != [] && firstName == []
    ensures r == Err(LastNameRequired) <==> email != [] && firstName != [] && lastName == []
    ensures r == Err(UsernameRequired) <==> email != [] && firstName != [] && lastName != [] && username == []
    ensures r.Ok? ==>
      var u := r.value;
      && u.id == id && u.firstName == firstName && u.lastName == lastName && u.username == username
      && u.password == password
      && u.isActive && !u.isStaff && !u.isSuperuser && !u.isVerified
      && (forall k :: 0 <= k < |u.email| ==> !IsUpper(u.email[k]))
  {
    if email == [] then Err(EmailRequired)
    else if firstName == [] then Err(FirstNameRequired)
    else if lastName == [] then Err(LastNameRequired)
    else if username == [] then Err(UsernameRequired)
    else
      var normalized := Lower(NormalizeEmail(email));
      Ok(SaveUser(User(id, normalized, firstName, lastName, username, password, true, false, false, false)))
  }

  /** The e-mail `create_user` stores is the stripped input in lower case
      when that contains `@`, and the unstripped input in lower case
      otherwise. */
  lemma CreateUserEmail(email: string, firstName: string, lastName: string, username: string,
                        password: Option<string>, id: UserId)
    requires CreateUser(email, firstName, lastName, username, password, id).Ok?
    ensures var stored := CreateUser(email, firstName, lastName, username, password, id).value.email;
      stored == if '@' in Strip(email) then Lower(Strip(email)) else Lower(email)
  {
    LowerOfNormalized(email);
    LowerIdempotent(NormalizeEmail(email));
  }

  /** `UserManager.create_superuser`: the same checks and the same user as
      `create_user`, then made superuser, staff and verified. */
  function CreateSuperuser(email: string, firstName: string, lastName: string, username: string,
                           password: Option<string>, id: UserId): (r: Result<User, CreateUserError>)
    ensures r.Err? <==> CreateUser(email, firstName, lastName, username, password, id).Err?
    ensures r.Err? ==> r == CreateUser(email, firstName, lastName, username, password, id)
    ensures r.Ok? ==> r.value.isSuperuser && r.value.isStaff && r.value.isVerified && r.value.isActive
    ensures r.Ok? ==> r.value == CreateUser(email, firstName, lastName, username, password, id).value
      .(isSuperuser := true, isStaff := true, isVerified := true)
  {
    match CreateUser(email, firstName, lastName, username, password, id)
    case Err(e) => Err(e)
    case Ok(u) =>
      LowerIdempotent(u.email);
      Ok(SaveUser(u.(isSuperuser := true, isStaff := true, isVerified := true)))
  }

  /** `User.get_full_name`: the first name, one space, the last name. */
  function FullName(u: User): (r: string)
    ensures |r| == |u.firstName| + 1 + |u.lastName|
    ensures r[..|u.firstName|] == u.firstName && r[|u.firstName|] == ' ' && r[|u.firstName| + 1..] == u.lastName
  {
    u.firstName + " " + u.lastName
  }

  // ---------------------------------------------------------------
  // RegistrationSerializer
  // ---------------------------------------------------------------

  /** An address already registered, ignoring case. */
  predicate EmailTakenIn(users: seq<User>, email: string) {
    exists i | 0 <= i < |users| :: EqualsIgnoringCase(users[i].email, email)
  }

  /** `RegistrationSerializer.validate_email`: the lower-cased address,
      refused when a registered address matches it ignoring case. */
  function ValidateRegistrationEmail(users: seq<User>, value: string): (r: Result<string, ()>)
    ensures r.Err? <==> EmailTakenIn(users, value)
    ensures r.Ok? ==> EqualsIgnoringCase(r.value, value) && forall k :: 0 <= k < |r.value| ==> !IsUpper(r.value[k])
  {
    var v := Lower(value);
    LowerIdempotent(value);
    if exists i | 0 <= i < |users| :: EqualsIgnoringCase(users[i].email, v) then Err(()) else Ok(v)
  }

  /** The request body of a registration; an empty string stands for a
      missing or blank field, which the required fields refuse. */
  datatype RegistrationInput = RegistrationInput(
    email: string,
    firstName: string,
    lastName: string,
    username: string,
    password: string,
    password2: string)

  datatype RegistrationFieldError =
    | EmailBlank
    | EmailTaken
    | FirstNameBlank
    | LastNameBlank
    | UsernameBlank
    | UsernameTaken
    | PasswordBlank
    | PasswordInvalid(code: PasswordError)
    | Password2Blank

  datatype RegistrationError =
    | FieldErrors(errors: seq<RegistrationFieldError>)
    | PasswordsDiffer
    | PasswordRefused(code: PasswordError)

  /** The field-level errors, in field order: the required fields, the
      e-mail uniqueness check, the exact-match uniqueness of the username
      and the password validator applied with no user. */
  function RegistrationFieldErrors(users: seq<User>, input: RegistrationInput): (errs: seq<RegistrationFieldError>)
    ensures errs == [] <==>
      && input.email != [] && !EmailTakenIn(users, input.email)
      && input.firstName != [] && input.lastName != []
      && input.username != [] && (forall i :: 0 <= i < |users| ==> users[i].username != input.username)
      && input.password != [] && ValidatePassword(input.password, None).Pass?
      && input.password2 != []
  {
    (if input.email == [] then [EmailBlank]
     else if ValidateRegistrationEmail(users, input.email).Err? then [EmailTaken] else [])
    + (if input.firstName == [] then [FirstNameBlank] else [])
    + (if input.lastName == [] then [LastNameBlank] else [])
    + (if input.username == [] then [UsernameBlank]
       else if exists i | 0 <= i < |users| :: users[i].username == input.username then [UsernameTaken] else [])
    + (if input.password == [] then [PasswordBlank]
       else match ValidatePassword(input.password, None)
         case Fail(e) => [PasswordInvalid(e)]
         case Pass => [])
    + (if input.password2 == [] then [Password2Blank] else [])
  }

  /** A registration: field errors first; then `validate`, which refuses
      different passwords and runs the password validator once more (it
      can no longer fail); then `create`, which drops the confirmation and
      saves the user with the lower-cased e-mail. */
  function Register(users: seq<User>, input: RegistrationInput, id: UserId): (r: Result<User, RegistrationError>)
    ensures r.Err? && r.error.FieldErrors? <==> RegistrationFieldErrors(users, input) != []
    ensures r.Err? && r.error.FieldErrors? ==> r.error.errors == RegistrationFieldErrors(users, input)
    ensures r == Err(PasswordsDiffer) <==>
      RegistrationFieldErrors(users, input) == [] && input.password != input.password2
    ensures !(r.Err? && r.error.PasswordRefused?)
    ensures r.Ok? ==>
      var u := r.value;
      && u.id == id && u.email == Lower(input.email)
      && u.firstName == input.firstName && u.lastName == input.lastName && u.username == input.username
      && u.password == Some(input.password) && input.password == input.password2
      && ValidatePassword(input.password, None).Pass?
      && !EmailTakenIn(users, u.email)
      && u.isActive && !u.isVerified && !u.isStaff && !u.isSuperuser
  {
    var errs := RegistrationFieldErrors(users, input);
    if errs != [] then Err(FieldErrors(errs))
    else if input.password != input.password2 then Err(PasswordsDiffer)
    else match ValidatePassword(input.password, None)
      case Fail(e) => Err(PasswordRefused(e))
      case Pass =>
        var email := ValidateRegistrationEmail(users, input.email).value;
        LowerIdempotent(input.email);
        Ok(SaveUser(User(id, Lower(email), input.firstName, input.lastName, input.username,
                         Some(input.password), true, false, false, false)))
  }

  /** Addresses are pairwise distinct ignoring case. */
  predicate EmailsDistinct(users: seq<User>) {
    forall i, j :: 0 <= i < |users| && 0 <= j < |users| && i != j ==>
      !EqualsIgnoringCase(users[i].email, users[j].email)
  }

  /** Registration keeps addresses unique ignoring case. */
  lemma RegisterKeepsEmailsDistinct(users: seq<User>, input: RegistrationInput, id: UserId)
    requires EmailsDistinct(users)
    requires Register(users, input, id).Ok?
    ensures EmailsDistinct(users + [Register(users, input, id).value])
  {
    var u := Register(users, input, id).value;
    var us := users + [u];
    forall i, j | 0 <= i < |us| && 0 <= j < |us| && i != j
      ensures !EqualsIgnoringCase(us[i].email, us[j].email)
    {
      if i == |users| {
        assert !EqualsIgnoringCase(users[j].email, u.email);
      } else if j == |users| {
        assert !EqualsIgnoringCase(users[i].email, u.email);
      } else {
        assert us[i] == users[i] && us[j] == users[j];
      }
    }
  }

  // ---------------------------------------------------------------
  // LoginSerializer
  // ---------------------------------------------------------------

  datatype LoginError = MissingCredentials | InvalidCredentials | AccountDisabled | EmailNotVerified

  /** `LoginSerializer.validate` with `authenticate` as an oracle from
      (lower-cased e-mail, password) to the matching user: refuses a
      missing e-mail or password, then failed authentication, then an
      inactive account, then an unverified one; on success yields the
      user and the lower-cased e-mail. */
  function Login(email: string, password: string, authenticate: (string, string) -> Option<User>)
    : (r: Result<(User, string), LoginError>)
    ensures r == Err(MissingCredentials) <==> email == [] || password == []
    ensures r == Err(InvalidCredentials) <==>
      email != [] && password != [] && authenticate(Lower(email), password).None?
    ensures r == Err(AccountDisabled) <==>
      email != [] && password != [] && authenticate(Lower(email), password).Some? &&
      !authenticate(Lower(email), password).value.isActive
    ensures r == Err(EmailNotVerified) <==>
      email != [] && password != [] && authenticate(Lower(email), password).Some? &&
      authenticate(Lower(email), password).value.isActive && !authenticate(Lower(email), password).value.isVerified
    ensures r.Ok? ==>
      && Some(r.value.0) == authenticate(Lower(email), password)
      && r.value.0.isActive && r.value.0.isVerified
      && r.value.1 == Lower(email)
  {
    var e := if email != [] then Lower(email) else email;
    if e == [] || password == [] then Err(MissingCredentials)
    else match authenticate(e, password)
      case None => Err(InvalidCredentials)
      case Some(u) =>
        if !u.isActive then Err(AccountDisabled)
        else if !u.isVerified then Err(EmailNotVerified)
        else Ok((u, e))
  }

  /** Login does not depend on the case of the e-mail typed. */
  lemma LoginIgnoresEmailCase(a: string, b: string, password: string, authenticate: (string, string) -> Option<User>)
    requires EqualsIgnoringCase(a, b)
    ensures Login(a, password, authenticate) == Login(b, password, authenticate)
  {
  }

  // ---------------------------------------------------------------
  // LogoutSerializer
  // ---------------------------------------------------------------

  datatype LogoutError = EmptyRefresh | InvalidRefresh

  /** `LogoutSerializer.validate_refresh` with token parsing as an oracle:
      a blank or all-whitespace value is refused before the token is
      looked at; otherwise the value is accepted exactly when it parses
      as a refresh token. */
  function ValidateRefresh(value: string, isRefreshToken: string -> bool): (r: Result<string, LogoutError>)
    ensures r == Err(EmptyRefresh) <==> forall k :: 0 <= k < |value| ==> IsSpace(value[k])
    ensures r == Err(InvalidRefresh) <==> Strip(value) != [] && !isRefreshToken(value)
    ensures r.Ok? ==> r.value == value && isRefreshToken(value)
  {
    StripEmptyIffAllSpace(value);
    if Strip(value) == [] then Err(EmptyRefresh)
    else if !isRefreshToken(value) then Err(InvalidRefresh)
    else Ok(value)
  }

  /** A blank token gets the same answer whatever the token parser would
      say: the parser is never consulted. */
  lemma BlankRefreshNeverParsed(value: string, f: string -> bool, g: string -> bool)
    requires forall k :: 0 <= k < |value| ==> IsSpace(value[k])
    ensures ValidateRefresh(value, f) == ValidateRefresh(value, g) == Err(EmptyRefresh)
  {
  }
}

=== FILE: consumer.dfy ===
/** The one-to-one WebSocket consumer of `chat/consumers.py`: the
    connect gate, disconnect, receive-and-broadcast, and the channel
    layer's group fan-out, over a snapshot of the private-chat tables. */
module Consumer {
  import opened Outcomes
  import opened Text
  import opened PrivateChat

  /** Channel names are opaque strings handed out by the channel layer. */
  type ChannelName = string

  /** `scope["user"]`: an anonymous user or an authenticated account. */
  datatype Principal = Anonymous | User(id: UserId)

  /** The fields a connection keeps between handler calls. `roomName` is
      missing until `connect` has run; `connect` sets it (and the group
      name derived from it) before any check. */
  datatype Connection = Connection(channel: ChannelName, user: Principal, roomName: Option<string>)

  /** The `chat_message` event put on the group by `receive`. */
  datatype Event = ChatMessage(message: string, senderId: UserId, timestamp: int)

  /** The JSON frame `chat_message` sends down each socket. */
  datatype Frame = Frame(message: string, senderId: UserId, timestamp: int)

  /** What a handler call asks the socket and the channel layer to do,
      in order. */
  datatype Effect =
    | GroupAdd(group: string)
    | Accept
    | Close
    | GroupDiscard(group: string)
    | GroupSend(group: string, event: Event)

  /** The channel layer's group memberships as (group, channel) pairs. */
  datatype Layer = Layer(subs: set<(string, ChannelName)>)

  /** The body of an incoming text frame, as far as `receive` looks at
      it: not JSON at all, JSON that is not an object (so `.get` fails),
      or an object whose `message` key holds a string or is missing or
      null. */
  datatype Inbound = NotJson | NotAnObject | JsonObject(message: Option<string>)

  // ---------------------------------------------------------------
  // Room names
  // ---------------------------------------------------------------

  /** The group a connection joins: `chat_` followed by the raw path
      segment, whatever spelling of the room key it uses. */
  function GroupName(roomName: string): (g: string)
    ensures |g| == |roomName| + 5 && g[..5] == "chat_" && g[5..] == roomName
  {
    "chat_" + roomName
  }

  /** Different path segments never share a group. */
  lemma GroupNameInjective(a: string, b: string)
    ensures GroupName(a) == GroupName(b) <==> a == b
  {
    if GroupName(a) == GroupName(b) {
      assert a == GroupName(a)[5..];
    }
  }

  /** What Python's `int()` accepts among `\w` strings: decimal digits,
      with single underscores allowed between two digits; leading zeros
      are allowed. */
  predicate IsIntLiteral(s: string) {
    |s| > 0 && forall i :: 0 <= i < |s| ==> LiteralCharAt(s, i)
  }

  /** The character at `i` is a digit, or an underscore between two
      digits. */
  predicate LiteralCharAt(s: string, i: nat)
    requires i < |s|
  {
    IsDigit(s[i]) || (s[i] == '_' && 0 < i < |s| - 1 && IsDigit(s[i - 1]) && IsDigit(s[i + 1]))
  }

  /** The characters of `s` other than underscores, in order. */
  function DropUnderscores(s: string): (r: string)
    ensures |r| <= |s|
    ensures forall c :: c in r <==> c in s && c != '_'
  {
    if s == [] then []
    else if s[0] == '_' then DropUnderscores(s[1..])
    else [s[0]] + DropUnderscores(s[1..])
  }

  function DigitValue(c: char): (d: nat)
    ensures d < 10
    ensures IsDigit(c) ==> d == c as int - '0' as int
  {
    if IsDigit(c) then c as int - '0' as int else 0
  }

  /** The value of a string of decimal digits, most significant first. */
  function Value(ds: string): nat {
    if ds == [] then 0 else Value(ds[..|ds| - 1]) * 10 + DigitValue(ds[|ds| - 1])
  }

  /** `int(room_name)`, which Django applies when the key is looked up:
      the value of an integer literal, and nothing for any other string
      (the `ValueError` is caught and the room treated as missing). */
  function ParseRoomId(s: string): (r: Option<RoomId>)
    ensures r.Some? <==> IsIntLiteral(s)
  {
    if IsIntLiteral(s) then Some(Value(DropUnderscores(s))) else None
  }

  /** The canonical decimal spelling of a key: digits only, no leading
      zero, and its value is the key. */
  function Show(n: nat): (s: string)
    ensures IsDigits(s)
    ensures |s| > 1 ==> s[0] != '0'
    ensures Value(s) == n
  {
    var d := ['0' + (n % 10) as char];
    if n < 10 then d
    else
      var s := Show(n / 10) + d;
      assert s[..|s| - 1] == Show(n / 10);
      s
  }

  lemma DropUnderscoresOfDigits(s: string)
    requires forall i :: 0 <= i < |s| ==> IsDigit(s[i])
    ensures DropUnderscores(s) == s
  {
    if s != [] {
      DropUnderscoresOfDigits(s[1..]);
    }
  }

  /** Every key is reached by its canonical spelling. */
  lemma ParseShow(n: nat)
    ensures ParseRoomId(Show(n)) == Some(n)
  {
    DropUnderscoresOfDigits(Show(n));
  }

  lemma {:induction false} ValueLeadingZero(t: string)
    ensures Value("0" + t) == Value(t)
  {
    if t != [] {
      var s := "0" + t;
      assert s[..|s| - 1] == "0" + t[..|t| - 1];
      ValueLeadingZero(t[..|t| - 1]);
    }
  }

  /** A leading zero names the same room but a different group: sockets
      opened on `ws/chat/007/` and `ws/chat/7/` pass the same gate and
      write to the same room, yet do not hear each other's broadcasts. */
  lemma LeadingZeroAliases(s: string)
    requires IsIntLiteral(s)
    ensures ParseRoomId("0" + s) == ParseRoomId(s)
    ensures GroupName("0" + s) != GroupName(s)
  {
    var z := "0" + s;
    forall i | 0 <= i < |z| ensures LiteralCharAt(z, i) {
      if i == 0 {
        assert z[0] == '0';
      } else {
        assert LiteralCharAt(s, i - 1);
        assert z[i] == s[i - 1];
        if z[i] == '_' {
          assert z[i - 1] == s[i - 2] && z[i + 1] == s[i];
        }
      }
    }
    assert DropUnderscores(z) == "0" + DropUnderscores(s) by {
      assert z[1..] == s;
    }
    ValueLeadingZero(DropUnderscores(s));
    assert |GroupName(z)| != |GroupName(s)|;
  }

  // ---------------------------------------------------------------
  // Database look-ups
  // ---------------------------------------------------------------

  /** `get_conversation`: the room whose key the path segment spells, if
      the segment is an integer and such a room exists. */
  function GetConversation(db: Db, roomName: string): (r: Option<Room>)
    ensures r.Some? <==> ParseRoomId(roomName).Some? && HasRoom(db.rooms, ParseRoomId(roomName).value)
    ensures r.Some? ==> r.value in db.rooms && r.value.id == ParseRoomId(roomName).value
  {
    match ParseRoomId(roomName)
    case None => None
    case Some(id) =>
      match FindRoom(db.rooms, id)
      case None => None
      case Some(i) => Some(db.rooms[i])
  }

  /** `user_in_conversation`: the user is one of the room's two
      participants; a missing room answers no. */
  function InConversation(db: Db, u: UserId, roomName: string): (b: bool)
    ensures b <==> (GetConversation(db, roomName).Some? &&
      (u == GetConversation(db, roomName).value.p1 || u == GetConversation(db, roomName).value.p2))
  {
    match GetConversation(db, roomName)
    case None => false
    case Some(room) => u == room.p1 || u == room.p2
  }

  /** The user may join the room spelled by `roomName`: the segment is an
      integer, and a stored room with that key has the user as one of its
      participants. */
  ghost predicate Admissible(db: Db, user: Principal, roomName: string) {
    && user.User?
    && ParseRoomId(roomName).Some?
    && exists room :: room in db.rooms && room.id == ParseRoomId(roomName).value &&
         (user.id == room.p1 || user.id == room.p2)
  }

  // ---------------------------------------------------------------
  // Handlers
  // ---------------------------------------------------------------

  /** `connect`: records the room name, then closes the socket for an
      anonymous user, a missing room or a non-participant, leaving the
      layer alone; otherwise joins the room's group and accepts. */
  function Connect(db: Db, layer: Layer, channel: ChannelName, user: Principal, roomName: string)
    : (r: (Connection, Layer, seq<Effect>))
    ensures r.0 == Connection(channel, user, Some(roomName))
    ensures r.2 == [Close] || r.2 == [GroupAdd(GroupName(roomName)), Accept]
    ensures r.2 == [Close] ==> r.1 == layer
    ensures r.2 != [Close] ==>
      && user.User? && InConversation(db, user.id, roomName)
      && r.1.subs == layer.subs + {(GroupName(roomName), channel)}
  {
    var conn := Connection(channel, user, Some(roomName));
    if user.Anonymous? then (conn, layer, [Close])
    else if GetConversation(db, roomName).None? then (conn, layer, [Close])
    else if !InConversation(db, user.id, roomName) then (conn, layer, [Close])
    else
      var g := GroupName(roomName);
      (conn, Layer(layer.subs + {(g, channel)}), [GroupAdd(g), Accept])
  }

  /** With unique room keys the gate accepts exactly the participants of
      the room the segment names. */
  lemma ConnectAdmitsExactlyParticipants(db: Db, layer: Layer, channel: ChannelName, user: Principal, roomName: string)
    requires Valid(db)
    ensures Connect(db, layer, channel, user, roomName).2 == [GroupAdd(GroupName(roomName)), Accept]
      <==> Admissible(db, user, roomName)
  {
    if Admissible(db, user, roomName) {
      var id := ParseRoomId(roomName).value;
      var room :| room in db.rooms && room.id == id && (user.id == room.p1 || user.id == room.p2);
      var k :| 0 <= k < |db.rooms| && db.rooms[k] == room;
      FindRoomUnique(db.rooms, id, k);
    }
  }

  /** `disconnect`: leaves the group whenever `connect` ran, accepted or
      not, and does nothing if it never ran. */
  function Disconnect(layer: Layer, conn: Connection): (r: (Layer, seq<Effect>))
    ensures r.1 == [] <==> conn.roomName.None?
    ensures conn.roomName.None? ==> r.0 == layer
    ensures conn.roomName.Some? ==>
      && r.1 == [GroupDiscard(GroupName(conn.roomName.value))]
      && r.0.subs == layer.subs - {(GroupName(conn.roomName.value), conn.channel)}
  {
    match conn.roomName
    case None => (layer, [])
    case Some(name) =>
      var g := GroupName(name);
      (Layer(layer.subs - {(g, conn.channel)}), [GroupDiscard(g)])
  }

  /** A connect followed by its disconnect leaves the layer as it was,
      whether the connect was accepted or closed, and the disconnect
      always asks to leave the group. */
  lemma ConnectThenDisconnect(db: Db, layer: Layer, channel: ChannelName, user: Principal, roomName: string)
    requires (GroupName(roomName), channel) !in layer.subs
    ensures var (conn, layer', _) := Connect(db, layer, channel, user, roomName);
      && Disconnect(layer', conn).0 == layer
      && Disconnect(layer', conn).1 == [GroupDiscard(GroupName(roomName))]
  {
  }

  /** `receive`: for an authenticated user, parses the frame, looks the
      room up again (without re-checking participation), stores the
      message and broadcasts it to the connection's group. Anything that
      goes wrong on the way (an anonymous user, bad JSON, a non-object, a
      missing room, a null message, a failing save) is swallowed: nothing
      is stored and nothing is sent. `saveFails` stands for a database
      error on insert. */
  function Receive(db: Db, conn: Connection, frame: Inbound, now: int, saveFails: bool): (r: (Db, seq<Effect>))
    ensures r.1 == [] <==> r.0 == db
    ensures r.1 != [] ==>
      && conn.user.User? && conn.roomName.Some? && frame.JsonObject? && frame.message.Some? && !saveFails
      && var room := GetConversation(db, conn.roomName.value);
      && room.Some?
      && var (db', m) := AppendMessage(db, room.value.id, conn.user.id, frame.message.value, now);
      && r.0 == db'
      && r.1 == [GroupSend(GroupName(conn.roomName.value), ChatMessage(m.content, m.sender, m.timestamp))]
    ensures (conn.user.User? && conn.roomName.Some? && frame.JsonObject? && frame.message.Some? && !saveFails &&
             GetConversation(db, conn.roomName.value).Some?) ==> r.1 != []
  {
    if conn.user.Anonymous? || conn.roomName.None? then (db, [])
    else match frame
      case NotJson => (db, [])
      case NotAnObject => (db, [])
      case JsonObject(message) =>
        match GetConversation(db, conn.roomName.value)
        case None => (db, [])
        case Some(room) =>
          if message.None? || saveFails then (db, [])
          else
            var (db', m) := AppendMessage(db, room.id, conn.user.id, message.value, now);
            (db', [GroupSend(GroupName(conn.roomName.value), ChatMessage(m.content, m.sender, m.timestamp))])
  }

  /** Receiving keeps the tables valid. */
  lemma ReceiveKeepsValid(db: Db, conn: Connection, frame: Inbound, now: int, saveFails: bool)
    requires Valid(db)
    ensures Valid(Receive(db, conn, frame, now, saveFails).0)
  {
    var r := Receive(db, conn, frame, now, saveFails);
    if r.1 != [] {
      var room := GetConversation(db, conn.roomName.value).value;
      AppendKeepsValid(db, room.id, conn.user.id, frame.message.value, now);
    }
  }

  /** Room keys keep their participants from one snapshot to a later
      one: a key present in both names the same pair. */
  ghost predicate SameParticipants(db: Db, db': Db) {
    forall a, b :: a in db.rooms && b in db'.rooms && a.id == b.id ==> a.p1 == b.p1 && a.p2 == b.p2
  }

  /** `receive` does not re-check participation, but it needs none: on a
      connection the gate accepted, every message stored later (as long
      as room keys keep their participants) is sent by a participant of
      the room it is stored in. */
  lemma ReceiveStoresOnlyParticipantMessages(
    db: Db, layer: Layer, channel: ChannelName, user: Principal, roomName: string,
    db': Db, frame: Inbound, now: int, saveFails: bool)
    requires Connect(db, layer, channel, user, roomName).2 != [Close]
    requires SameParticipants(db, db')
    ensures var conn := Connect(db, layer, channel, user, roomName).0;
      var r := Receive(db', conn, frame, now, saveFails);
      r.1 != [] ==>
        var m := r.0.messages[|r.0.messages| - 1];
        && m.sender == user.id
        && exists room :: room in db'.rooms && room.id == m.room && (m.sender == room.p1 || m.sender == room.p2)
  {
    var conn := Connect(db, layer, channel, user, roomName).0;
    var r := Receive(db', conn, frame, now, saveFails);
    if r.1 != [] {
      var a := GetConversation(db, roomName).value;
      var b := GetConversation(db', roomName).value;
      assert a.p1 == b.p1 && a.p2 == b.p2;
      var m := r.0.messages[|r.0.messages| - 1];
      assert m.room == b.id && m.sender == user.id;
    }
  }

  /** The rooms a delete leaves keep their participants, so an open
      socket stays confined to its pair across deletes. */
  lemma DeleteKeepsParticipants(db: Db, u: UserId, id: RoomId)
    requires Valid(db)
    ensures SameParticipants(db, DeleteRoom(db, u, id).0)
  {
    DeleteFlagsOnlyRise(db, u, id);
    RisingKeepsParticipants(db, DeleteRoom(db, u, id).0);
  }

  /** When every room of a later snapshot is a later state of an earlier
      room, and earlier keys are unique, keys keep their participants. */
  lemma RisingKeepsParticipants(db: Db, db': Db)
    requires RoomsDistinct(db.rooms) && OnlyRise(db.rooms, db'.rooms)
    ensures SameParticipants(db, db')
  {
    forall a, b | a in db.rooms && b in db'.rooms && a.id == b.id ensures a.p1 == b.p1 && a.p2 == b.p2 {
      var y :| y in db.rooms && Precedes(y, b);
      KeyNamesOneRoom(db.rooms, a, y);
    }
  }

  /** In a table with unique keys, two stored rooms with the same key are
      the same room. */
  lemma KeyNamesOneRoom(rooms: seq<Room>, a: Room, b: Room)
    requires RoomsDistinct(rooms) && a in rooms && b in rooms && a.id == b.id
    ensures a == b
  {
    var i :| 0 <= i < |rooms| && rooms[i] == a;
    var j :| 0 <= j < |rooms| && rooms[j] == b;
    assert i == j;
  }

  // ---------------------------------------------------------------
  // Fan-out
  // ---------------------------------------------------------------

  /** `chat_message`: the frame each member of the group is sent. */
  function ToFrame(e: Event): (f: Frame)
    ensures (f.message, f.senderId, f.timestamp) == (e.message, e.senderId, e.timestamp)
  {
    Frame(e.message, e.senderId, e.timestamp)
  }

  /** `group_send` followed by each member's `chat_message`: exactly the
      channels subscribed to the group receive the event's frame. */
  function Fanout(layer: Layer, group: string, e: Event): (out: set<(ChannelName, Frame)>)
    ensures forall c, f :: (c, f) in out <==> (group, c) in layer.subs && f == ToFrame(e)
  {
    set p | p in layer.subs && p.0 == group :: (p.1, ToFrame(e))
  }

  /** The sender hears its own message: after an accepted connect, a
      stored message is delivered back to the sender's channel with the
      stored content. */
  lemma SenderHearsOwnMessage(
    db: Db, layer: Layer, channel: ChannelName, user: Principal, roomName: string,
    frame: Inbound, now: int, saveFails: bool)
    requires Connect(db, layer, channel, user, roomName).2 != [Close]
    ensures var (conn, layer', _) := Connect(db, layer, channel, user, roomName);
      var r := Receive(db, conn, frame, now, saveFails);
      r.1 != [] ==>
        (channel, Frame(frame.message.value, user.id, now)) in Fanout(layer', r.1[0].group, r.1[0].event)
  {
    var (conn, layer', _) := Connect(db, layer, channel, user, roomName);
    var r := Receive(db, conn, frame, now, saveFails);
    if r.1 != [] {
      assert (GroupName(roomName), channel) in layer'.subs;
    }
  }

  /** Sockets opened on two spellings of the same room key (`7` and
      `007`) do not hear each other: a broadcast on one group reaches a
      channel subscribed only to the other group nowhere. */
  lemma AliasesDoNotHearEachOther(layer: Layer, s: string, other: ChannelName, e: Event)
    requires IsIntLiteral(s)
    requires forall g :: (g, other) in layer.subs ==> g == GroupName("0" + s)
    ensures forall f :: (other, f) !in Fanout(layer, GroupName(s), e)
  {
    LeadingZeroAliases(s);
  }
}

=== FILE: group_chat.dfy ===
/** Group chat governance: the serializer validators of
    `chat/serializers/group_chat.py` and the membership transitions of
    `chat/views/group_views.py`, over an immutable snapshot of the group
    and membership tables.

    The group and membership models themselves are not part of this
    model; what the code uses of them (the member limit behind `is_full`,
    the `ROLE_CHOICES` keys, field defaults) is the `Config` parameter. */
module GroupChat {
  import opened Outcomes
  import opened Text

  type UserId = nat
  type GroupId = nat

  /** The role string the views test for. */
  const Admin: string := "admin"

  /** The most active groups one user may have created. */
  const MaxActiveGroups: nat := 10

  /** The longest group name and description accepted. */
  const MaxNameLength: nat := 20
  const MinNameLength: nat := 2
  const MaxDescriptionLength: nat := 300

  /** A group row (`GroupChatRoom`). */
  datatype Group = Group(
    name: string,
    description: Option<string>,
    createdBy: UserId,
    isPrivate: bool,
    isActive: bool)

  /** A membership row (`GroupMember`), keyed by (group, user). */
  datatype Member = Member(role: string, canInvite: bool)

  /** What the group models contribute: the member limit behind
      `is_full`, the keys of `ROLE_CHOICES`, and the field defaults used
      when a request leaves a field out. */
  datatype Config = Config(
    maxMembers: nat,
    roleChoices: set<string>,
    defaultRole: string,
    defaultCanInvite: bool,
    defaultPrivate: bool,
    defaultActive: bool)

  /** The users, groups and memberships the views read and write. A map
      keyed by (group, user) holds at most one membership per pair, which
      the member serializer's duplicate check keeps in the code. */
  datatype State = State(
    users: set<UserId>,
    groups: map<GroupId, Group>,
    members: map<(GroupId, UserId), Member>)

  /** Referential integrity: memberships point at existing groups and
      users, and every group's creator exists. */
  predicate Valid(s: State) {
    && (forall k :: k in s.members ==> k.0 in s.groups && k.1 in s.users)
    && (forall g :: g in s.groups ==> s.groups[g].createdBy in s.users)
  }

  /** The users holding a membership of group `g`. */
  function MembersOf(s: State, g: GroupId): set<UserId> {
    set k | k in s.members && k.0 == g :: k.1
  }

  /** `member_count` and `is_full`: the group is full once its member
      count reaches the configured limit. */
  function MemberCount(s: State, g: GroupId): nat {
    |MembersOf(s, g)|
  }

  predicate IsFull(s: State, cfg: Config, g: GroupId) {
    MemberCount(s, g) >= cfg.maxMembers
  }

  predicate IsMember(s: State, g: GroupId, u: UserId) {
    (g, u) in s.members
  }

  predicate IsAdmin(s: State, g: GroupId, u: UserId) {
    (g, u) in s.members && s.members[(g, u)].role == Admin
  }

  ghost predicate HasAdmin(s: State, g: GroupId) {
    exists u :: IsAdmin(s, g, u)
  }

  /** The active groups user `u` created. */
  function ActiveGroupsOf(s: State, u: UserId): set<GroupId> {
    set g | g in s.groups && s.groups[g].createdBy == u && s.groups[g].isActive
  }

  /** No creator has two active groups whose names match ignoring case. */
  predicate UniqueActiveNames(s: State) {
    forall g1, g2 ::
      g1 in s.groups && g2 in s.groups && g1 != g2
      && s.groups[g1].isActive && s.groups[g2].isActive
      && s.groups[g1].createdBy == s.groups[g2].createdBy
      ==> !EqualsIgnoringCase(s.groups[g1].name, s.groups[g2].name)
  }

  // ---------------------------------------------------------------
  // GroupChatRoomSerializer field validators
  // ---------------------------------------------------------------

  datatype NameError = NameEmpty | NameNumeric | NameTooLong | NameTooShort

  /** A name the validator accepts once stripped. */
  predicate WellFormedName(t: string) {
    MinNameLength <= |t| <= MaxNameLength && !IsDigits(t)
  }

  /** `validate_name`: strips the value and rejects, in this order, an
      empty name, a purely numeric one, one longer than 20 characters
      and one shorter than 2; an accepted name is returned stripped. */
  function ValidateName(value: string): (r: Result<string, NameError>)
    ensures r.Ok? <==> WellFormedName(Strip(value))
    ensures r.Ok? ==> r.value == Strip(value)
    ensures r == Err(NameEmpty) <==> Strip(value) == []
    ensures r == Err(NameNumeric) <==> IsDigits(Strip(value))
    ensures r == Err(NameTooLong) <==> |Strip(value)| > MaxNameLength && !IsDigits(Strip(value))
    ensures r == Err(NameTooShort) <==> |Strip(value)| == 1 && !IsDigits(Strip(value))
  {
    var t := Strip(value);
    if t == [] then Err(NameEmpty)
    else if IsDigits(t) then Err(NameNumeric)
    else if |t| > MaxNameLength then Err(NameTooLong)
    else if |t| < MinNameLength then Err(NameTooShort)
    else Ok(t)
  }

  /** Validating an accepted name again accepts it unchanged. */
  lemma ValidateNameIdempotent(value: string)
    requires ValidateName(value).Ok?
    ensures ValidateName(ValidateName(value).value) == ValidateName(value)
  {
    StripIdempotent(value);
  }

  datatype DescriptionError = DescriptionTooLong

  /** `validate_description`: a missing description passes through; a
      present one is stripped, rejected above 300 characters, and
      becomes missing when nothing is left. */
  function ValidateDescription(value: Option<string>): (r: Result<Option<string>, DescriptionError>)
    ensures value.None? ==> r == Ok(None)
    ensures value.Some? ==> (r.Err? <==> |Strip(value.value)| > MaxDescriptionLength)
    ensures value.Some? && Strip(value.value) == [] ==> r == Ok(None)
    ensures r.Ok? && r.value.Some? ==>
      value.Some? && r.value.value == Strip(value.value)
      && 0 < |r.value.value| <= MaxDescriptionLength
  {
    match value
    case None => Ok(None)
    case Some(v) =>
      var t := Strip(v);
      if |t| > MaxDescriptionLength then Err(DescriptionTooLong)
      else if t == [] then Ok(None)
      else Ok(Some(t))
  }

  /** A request body value, as far as `validate_is_private` cares. */
  datatype JsonValue = JBool(b: bool) | JString(s: string) | JNumber(n: int) | JNull

  datatype PrivacyError = NotABoolean

  /** `validate_is_private`: only a boolean is accepted, unchanged. */
  function ValidateIsPrivate(value: JsonValue): (r: Result<bool, PrivacyError>)
    ensures r.Ok? <==> value.JBool?
    ensures r.Ok? ==> r.value == value.b
  {
    if value.JBool? then Ok(value.b) else Err(NotABoolean)
  }

  // ---------------------------------------------------------------
  // GroupChatRoomSerializer.validate
  // ---------------------------------------------------------------

  datatype GroupError = TooManyGroups | DuplicateName

  /** Another active group of `u`, not the one being updated, already
      carries `name` up to case. */
  predicate NameTaken(s: State, u: UserId, name: string, instance: Option<GroupId>) {
    exists g :: g in s.groups && s.groups[g].createdBy == u && s.groups[g].isActive
      && EqualsIgnoringCase(s.groups[g].name, name) && instance != Some(g)
  }

  /** `validate`: with a requester, a creation (no instance) is refused
      once the requester has 10 active groups, and then a non-empty name
      equal up to case to another of the requester's active groups is
      refused. Without a requester everything passes. */
  function ValidateGroup(s: State, requester: Option<UserId>, instance: Option<GroupId>, name: Option<string>)
    : (r: Check<GroupError>)
    ensures requester.None? ==> r == Pass
    ensures r == Fail(TooManyGroups) <==>
      requester.Some? && instance.None? && |ActiveGroupsOf(s, requester.value)| >= MaxActiveGroups
    ensures r == Fail(DuplicateName) <==>
      && requester.Some?
      && !(instance.None? && |ActiveGroupsOf(s, requester.value)| >= MaxActiveGroups)
      && name.Some? && name.value != []
      && NameTaken(s, requester.value, name.value, instance)
  {
    match requester
    case None => Pass
    case Some(u) =>
      if instance.None? && |ActiveGroupsOf(s, u)| >= MaxActiveGroups then Fail(TooManyGroups)
      else if name.Some? && name.value != [] && NameTaken(s, u, name.value, instance) then Fail(DuplicateName)
      else Pass
  }

  /** The writable fields of a group creation request. */
  datatype GroupInput = GroupInput(
    name: string,
    description: Option<string>,
    isPrivate: Option<JsonValue>,
    isActive: Option<bool>)

  datatype FieldError =
    | BadName(nameError: NameError)
    | BadDescription(descriptionError: DescriptionError)
    | BadPrivacy(privacyError: PrivacyError)

  datatype InputError = FieldErrors(errors: seq<FieldError>) | Rejected(groupError: GroupError)

  datatype GroupData = GroupData(name: string, description: Option<string>, isPrivate: bool, isActive: bool)

  /** The field errors of a group request, in field order: name,
      description, privacy flag. */
  function FieldErrorsOf(input: GroupInput): (r: seq<FieldError>)
    ensures r == [] <==>
      && ValidateName(input.name).Ok?
      && ValidateDescription(input.description).Ok?
      && (input.isPrivate.None? || input.isPrivate.value.JBool?)
    ensures BadName(NameEmpty) in r <==> Strip(input.name) == []
    ensures forall e :: BadName(e) in r <==> ValidateName(input.name) == Err(e)
    ensures forall e :: BadDescription(e) in r <==> ValidateDescription(input.description) == Err(e)
    ensures forall e :: BadPrivacy(e) in r <==>
      input.isPrivate.Some? && ValidateIsPrivate(input.isPrivate.value) == Err(e)
  {
    var n := ValidateName(input.name);
    var p := if input.isPrivate.Some? then ValidateIsPrivate(input.isPrivate.value) else Ok(false);
    assert p.Ok? <==> input.isPrivate.None? || input.isPrivate.value.JBool?;
    Collect(n, ValidateDescription(input.description), p)
  }

  /** Gathers the failures of the three field validators, in order. */
  function Collect<A, B, C>(n: Result<A, NameError>, d: Result<B, DescriptionError>, p: Result<C, PrivacyError>)
    : (r: seq<FieldError>)
    ensures r == [] <==> n.Ok? && d.Ok? && p.Ok?
    ensures BadName(NameEmpty) in r <==> n == Err(NameEmpty)
    ensures forall e :: BadName(e) in r <==> n == Err(e)
    ensures forall e :: BadDescription(e) in r <==> d == Err(e)
    ensures forall e :: BadPrivacy(e) in r <==> p == Err(e)
  {
    var others := (if d.Err? then [BadDescription(d.error)] else [])
      + (if p.Err? then [BadPrivacy(p.error)] else []);
    assert BadName(NameEmpty) !in others;
    (if n.Err? then [BadName(n.error)] else []) + others
  }

  /** `is_valid()` on the group serializer: every field validator runs
      and all field errors are reported together; only when every field
      passes does `validate` run. Accepted data carries the stripped name
      and description and the model defaults for missing flags. */
  function ValidateInput(s: State, cfg: Config, requester: Option<UserId>, instance: Option<GroupId>, input: GroupInput)
    : (r: Result<GroupData, InputError>)
    ensures r.Ok? ==>
      && WellFormedName(r.value.name) && r.value.name == Strip(input.name)
      && ValidateDescription(input.description) == Ok(r.value.description)
      && (input.isPrivate.Some? ==> input.isPrivate.value == JBool(r.value.isPrivate))
      && (input.isPrivate.None? ==> r.value.isPrivate == cfg.defaultPrivate)
      && r.value.isActive == (if input.isActive.Some? then input.isActive.value else cfg.defaultActive)
      && ValidateGroup(s, requester, instance, Some(r.value.name)) == Pass
    ensures r.Err? && r.error.FieldErrors? ==> r.error.errors == FieldErrorsOf(input) != []
    ensures !WellFormedName(Strip(input.name)) ==> r.Err? && r.error.FieldErrors?
    ensures r.Err? && r.error.Rejected? ==>
      && FieldErrorsOf(input) == []
      && ValidateGroup(s, requester, instance, Some(Strip(input.name))) == Fail(r.error.groupError)
  {
    var errors := FieldErrorsOf(input);
    if errors != [] then Err(FieldErrors(errors))
    else
      var name := ValidateName(input.name).value;
      var description := ValidateDescription(input.description).value;
      var isPrivate := if input.isPrivate.Some? then input.isPrivate.value.b else cfg.defaultPrivate;
      var isActive := if input.isActive.Some? then input.isActive.value else cfg.defaultActive;
      var check := ValidateGroup(s, requester, instance, Some(name));
      if check.Fail? then Err(Rejected(check.error))
      else Ok(GroupData(name, description, isPrivate, isActive))
  }

  // ---------------------------------------------------------------
  // Group views
  // ---------------------------------------------------------------

  /** The errors the group views answer with. */
  datatype ViewError =
    | GroupNotFound
    | InvalidGroup(inputError: InputError)
    | AccessDenied
    | NotCreator
    | CannotAddMembers
    | InvalidMember(memberError: MemberError)
    | UserIdRequired
    | RequesterNotMember
    | RequesterNotAdmin
    | TargetNotMember
    | CannotRemoveSelf
    | NotAMember
    | AdminCannotLeave

  /** The HTTP status each view error is answered with. */
  function StatusOf(e: ViewError): Status {
    match e
    case GroupNotFound => NotFound404
    case InvalidGroup(_) => BadRequest400
    case AccessDenied => Forbidden403
    case NotCreator => Forbidden403
    case CannotAddMembers => Forbidden403
    case InvalidMember(_) => BadRequest400
    case UserIdRequired => BadRequest400
    case RequesterNotMember => Forbidden403
    case RequesterNotAdmin => Forbidden403
    case TargetNotMember => NotFound404
    case CannotRemoveSelf => BadRequest400
    case NotAMember => NotFound404
    case AdminCannotLeave => Forbidden403
  }

  /** `group_chat_list_create_view`, GET: the active groups the user
      belongs to, each once. */
  function ListGroups(s: State, u: UserId): (r: set<GroupId>)
    ensures r <= s.groups.Keys
    ensures forall g :: g in r ==> s.groups[g].isActive && IsMember(s, g, u)
  {
    set g | g in s.groups && s.groups[g].isActive && IsMember(s, g, u)
  }

  /** `group_chat_list_create_view`, POST: on valid input the group is
      stored under the new id with `u` as creator, and `u` becomes its
      only member, an admin allowed to invite; on invalid input nothing
      changes. */
  function CreateGroup(s: State, cfg: Config, u: UserId, input: GroupInput, newId: GroupId)
    : (r: (State, Result<GroupId, ViewError>))
    requires newId !in s.groups
    ensures r.1.Ok? <==> ValidateInput(s, cfg, Some(u), None, input).Ok?
    ensures r.1.Err? ==>
      && r.0 == s
      && r.1.error == InvalidGroup(ValidateInput(s, cfg, Some(u), None, input).error)
      && StatusOf(r.1.error) == BadRequest400
    ensures r.1.Ok? ==>
      && r.1.value == newId
      && r.0.users == s.users
      && newId in r.0.groups
      && r.0.groups == s.groups[newId := r.0.groups[newId]]
      && r.0.groups[newId].createdBy == u
      && r.0.groups[newId].name == Strip(input.name)
      && WellFormedName(r.0.groups[newId].name)
      && ValidateDescription(input.description) == Ok(r.0.groups[newId].description)
      && r.0.groups[newId].isPrivate == (if input.isPrivate.Some? then input.isPrivate.value.b else cfg.defaultPrivate)
      && r.0.groups[newId].isActive == (if input.isActive.Some? then input.isActive.value else cfg.defaultActive)
      && r.0.members == s.members[(newId, u) := Member(Admin, true)]
    ensures r.1.Ok? ==>
      && |ActiveGroupsOf(s, u)| < MaxActiveGroups
      && !NameTaken(s, u, r.0.groups[newId].name, None)
  {
    var v := ValidateInput(s, cfg, Some(u), None, input);
    if v.Err? then (s, Err(InvalidGroup(v.error)))
    else
      var d := v.value;
      PassedValidation(s, u, d.name);
      var group := Group(d.name, d.description, u, d.isPrivate, d.isActive);
      (State(s.users, s.groups[newId := group], s.members[(newId, u) := Member(Admin, true)]), Ok(newId))
  }

  /** `group_chat_detail_view`, GET: a missing or inactive group is not
      found; a non-member is refused; a member gets the group. */
  function DetailGet(s: State, u: UserId, g: GroupId): (r: Result<Group, ViewError>)
    ensures r.Ok? <==> g in s.groups && s.groups[g].isActive && IsMember(s, g, u)
    ensures r.Ok? ==> r.value == s.groups[g]
    ensures r == Err(GroupNotFound) <==> g !in s.groups || !s.groups[g].isActive
    ensures r == Err(AccessDenied) <==> g in s.groups && s.groups[g].isActive && !IsMember(s, g, u)
    ensures r.Err? ==> (StatusOf(r.error) == NotFound404 <==> g !in s.groups || !s.groups[g].isActive)
  {
    if g !in s.groups || !s.groups[g].isActive then Err(GroupNotFound)
    else if !IsMember(s, g, u) then Err(AccessDenied)
    else Ok(s.groups[g])
  }

  /** `group_chat_detail_view`, DELETE: a missing or inactive group is
      not found; anyone but the creator is refused; the creator's delete
      is a soft delete that only clears `is_active`. */
  function DetailDelete(s: State, u: UserId, g: GroupId): (r: (State, Check<ViewError>))
    ensures r.1.Fail? ==> r.0 == s
    ensures r.1 == Fail(GroupNotFound) <==> g !in s.groups || !s.groups[g].isActive
    ensures r.1 == Fail(NotCreator) <==> g in s.groups && s.groups[g].isActive && s.groups[g].createdBy != u
    ensures r.1.Pass? <==> g in s.groups && s.groups[g].isActive && s.groups[g].createdBy == u
    ensures r.1.Fail? ==> (StatusOf(r.1.error) == NotFound404 <==> g !in s.groups || !s.groups[g].isActive)
    ensures r.1.Pass? ==>
      && r.0.users == s.users && r.0.members == s.members
      && r.0.groups == s.groups[g := s.groups[g].(isActive := false)]
  {
    if g !in s.groups || !s.groups[g].isActive then (s, Fail(GroupNotFound))
    else if s.groups[g].createdBy != u then (s, Fail(NotCreator))
    else (State(s.users, s.groups[g := s.groups[g].(isActive := false)], s.members), Pass)
  }

  // ---------------------------------------------------------------
  // GroupMemberSerializer
  // ---------------------------------------------------------------

  /** A field error of the member serializer: `user_id` left out (or
      null), `user_id` not a UUID, or a failed `validate_user_id` or
      `validate_role`. */
  datatype MemberFieldError = UserIdMissing | UserIdNotUuid | SelfAsMember | UnknownUser | InvalidRole

  datatype MemberError = MemberFields(errors: seq<MemberFieldError>) | AlreadyMember | GroupIsFull

  /** `validate_user_id`: refuses the requester's own id, when the
      serializer was given a requester, and ids of users that do not
      exist. */
  function ValidateUserId(s: State, requester: Option<UserId>, value: UserId): (r: Result<UserId, MemberFieldError>)
    ensures r.Ok? <==> requester != Some(value) && value in s.users
    ensures r.Ok? ==> r.value == value
    ensures requester == Some(value) ==> r == Err(SelfAsMember)
  {
    if requester == Some(value) then Err(SelfAsMember)
    else if value !in s.users then Err(UnknownUser)
    else Ok(value)
  }

  /** `validate_role`: only keys of `ROLE_CHOICES` are accepted. */
  function ValidateRole(cfg: Config, value: string): (r: Result<string, MemberFieldError>)
    ensures r.Ok? <==> value in cfg.roleChoices
    ensures r.Ok? ==> r.value == value
  {
    if value in cfg.roleChoices then Ok(value) else Err(InvalidRole)
  }

  /** `validate`: without a group in context everything passes;
      otherwise an existing membership of the user (other than the row
      being updated) is refused first, then a full group. */
  function ValidateMembership(s: State, cfg: Config, group: Option<GroupId>, user: UserId, instance: Option<(GroupId, UserId)>)
    : (r: Check<MemberError>)
    ensures group.None? ==> r == Pass
    ensures r == Fail(AlreadyMember) <==>
      group.Some? && IsMember(s, group.value, user) && instance != Some((group.value, user))
    ensures r == Fail(GroupIsFull) <==>
      && group.Some?
      && !(IsMember(s, group.value, user) && instance != Some((group.value, user)))
      && IsFull(s, cfg, group.value)
  {
    match group
    case None => Pass
    case Some(g) =>
      if IsMember(s, g, user) && instance != Some((g, user)) then Fail(AlreadyMember)
      else if IsFull(s, cfg, g) then Fail(GroupIsFull)
      else Pass
  }

  /** The `user_id` of a request body as the required `UUIDField` sees
      it: left out (or null), present but not a UUID, or a UUID. */
  datatype UuidInput = Absent | NotAUuid | AUuid(id: UserId)

  /** The body of an add-member request. */
  datatype AddRequest = AddRequest(userId: UuidInput, role: Option<string>, canInvite: Option<bool>)

  /** The field errors of an add-member body, in field order: the user
      id (required, parsed as a UUID, then checked without a requester in
      context) and the role, whose default applies when it is left out. */
  function MemberFieldErrors(s: State, cfg: Config, req: AddRequest): (r: seq<MemberFieldError>)
    ensures r == [] <==>
      req.userId.AUuid? && req.userId.id in s.users && (req.role.Some? ==> req.role.value in cfg.roleChoices)
    ensures UserIdMissing in r <==> req.userId.Absent?
    ensures UserIdNotUuid in r <==> req.userId.NotAUuid?
    ensures UnknownUser in r <==> req.userId.AUuid? && req.userId.id !in s.users
    ensures InvalidRole in r <==> req.role.Some? && req.role.value !in cfg.roleChoices
    ensures SelfAsMember !in r
  {
    var u := match req.userId
      case Absent => Err(UserIdMissing)
      case NotAUuid => Err(UserIdNotUuid)
      case AUuid(id) => ValidateUserId(s, None, id);
    var ro := if req.role.Some? then ValidateRole(cfg, req.role.value) else Ok(cfg.defaultRole);
    (if u.Err? then [u.error] else []) + (if ro.Err? then [ro.error] else [])
  }

  /** `add_group_member`: the group must exist (active or not); the
      requester must be a member allowed to invite; then the member
      serializer validates with only the group in its context, so the
      requester's own id is not singled out by `validate_user_id`. On
      success exactly the new (group, user) membership is added. */
  function AddMember(s: State, cfg: Config, requester: UserId, g: GroupId, req: AddRequest)
    : (r: (State, Result<Member, ViewError>))
    ensures r.1.Err? ==> r.0 == s
    ensures r.1 == Err(GroupNotFound) <==> g !in s.groups
    ensures r.1 == Err(CannotAddMembers) <==>
      g in s.groups && !(IsMember(s, g, requester) && s.members[(g, requester)].canInvite)
    ensures r.1.Err? && r.1.error.InvalidMember? && r.1.error.memberError.MemberFields? ==>
      r.1.error.memberError.errors == MemberFieldErrors(s, cfg, req) != []
    ensures r.1.Err? ==> (StatusOf(r.1.error) == Forbidden403 <==> r.1.error == CannotAddMembers)
    ensures (g in s.groups && IsMember(s, g, requester) && s.members[(g, requester)].canInvite
             && MemberFieldErrors(s, cfg, req) != []) ==>
      r.1 == Err(InvalidMember(MemberFields(MemberFieldErrors(s, cfg, req))))
    ensures (g in s.groups && IsMember(s, g, requester) && s.members[(g, requester)].canInvite
             && MemberFieldErrors(s, cfg, req) == []
             && ValidateMembership(s, cfg, Some(g), req.userId.id, None).Fail?) ==>
      r.1 == Err(InvalidMember(ValidateMembership(s, cfg, Some(g), req.userId.id, None).error))
    ensures r.1.Ok? <==>
      && g in s.groups && IsMember(s, g, requester) && s.members[(g, requester)].canInvite
      && req.userId.AUuid? && req.userId.id in s.users && !IsMember(s, g, req.userId.id) && !IsFull(s, cfg, g)
      && (req.role.Some? ==> req.role.value in cfg.roleChoices)
    ensures r.1.Ok? ==>
      && r.1.value == Member(
           if req.role.Some? then req.role.value else cfg.defaultRole,
           if req.canInvite.Some? then req.canInvite.value else cfg.defaultCanInvite)
      && r.0 == s.(members := s.members[(g, req.userId.id) := r.1.value])
  {
    if g !in s.groups then (s, Err(GroupNotFound))
    else if !(IsMember(s, g, requester) && s.members[(g, requester)].canInvite) then (s, Err(CannotAddMembers))
    else
      var errors := MemberFieldErrors(s, cfg, req);
      if errors != [] then (s, Err(InvalidMember(MemberFields(errors))))
      else
        var u := req.userId.id;
        match ValidateMembership(s, cfg, Some(g), u, None)
        case Fail(e) => (s, Err(InvalidMember(e)))
        case Pass =>
          var m := Member(
            if req.role.Some? then req.role.value else cfg.defaultRole,
            if req.canInvite.Some? then req.canInvite.value else cfg.defaultCanInvite);
          (s.(members := s.members[(g, u) := m]), Ok(m))
  }

  /** `remove_member_by_admin`. The checks run in this order: group
      exists (404), `user_id` present (400), requester is a member (403),
      requester is an admin (403), target is a member (404), target is
      not the requester (400). On success exactly the target's
      membership is removed. */
  function RemoveMember(s: State, requester: UserId, g: GroupId, target: Option<UserId>)
    : (r: (State, Check<ViewError>))
    ensures r.1.Fail? ==> r.0 == s
    ensures r.1 == Fail(GroupNotFound) <==> g !in s.groups
    ensures r.1 == Fail(UserIdRequired) <==> g in s.groups && target.None?
    ensures r.1 == Fail(RequesterNotMember) <==>
      g in s.groups && target.Some? && !IsMember(s, g, requester)
    ensures r.1 == Fail(RequesterNotAdmin) <==>
      g in s.groups && target.Some? && IsMember(s, g, requester) && !IsAdmin(s, g, requester)
    ensures r.1 == Fail(TargetNotMember) <==>
      g in s.groups && target.Some? && IsAdmin(s, g, requester) && !IsMember(s, g, target.value)
    ensures r.1 == Fail(CannotRemoveSelf) <==>
      g in s.groups && target == Some(requester) && IsAdmin(s, g, requester)
    ensures r.1.Pass? <==>
      && g in s.groups && target.Some? && target.value != requester
      && IsAdmin(s, g, requester) && IsMember(s, g, target.value)
    ensures r.1.Fail? ==>
      (StatusOf(r.1.error) == Forbidden403 <==> g in s.groups && target.Some? && !IsAdmin(s, g, requester))
    ensures r.1.Pass? ==> r.0 == s.(members := s.members - {(g, target.value)})
  {
    if g !in s.groups then (s, Fail(GroupNotFound))
    else if target.None? then (s, Fail(UserIdRequired))
    else if !IsMember(s, g, requester) then (s, Fail(RequesterNotMember))
    else if !IsAdmin(s, g, requester) then (s, Fail(RequesterNotAdmin))
    else if !IsMember(s, g, target.value) then (s, Fail(TargetNotMember))
    else if target.value == requester then (s, Fail(CannotRemoveSelf))
    else (s.(members := s.members - {(g, target.value)}), Pass)
  }

  /** `leave_group`: a missing group or a non-member is not found; any
      admin is refused; otherwise exactly the requester's own membership
      is removed. */
  function Leave(s: State, requester: UserId, g: GroupId): (r: (State, Check<ViewError>))
    ensures r.1.Fail? ==> r.0 == s
    ensures r.1 == Fail(GroupNotFound) <==> g !in s.groups
    ensures r.1 == Fail(NotAMember) <==> g in s.groups && !IsMember(s, g, requester)
    ensures r.1 == Fail(AdminCannotLeave) <==> g in s.groups && IsAdmin(s, g, requester)
    ensures r.1.Pass? <==> g in s.groups && IsMember(s, g, requester) && !IsAdmin(s, g, requester)
    ensures r.1.Fail? ==> (StatusOf(r.1.error) == Forbidden403 <==> g in s.groups && IsAdmin(s, g, requester))
    ensures r.1.Pass? ==> r.0 == s.(members := s.members - {(g, requester)})
  {
    if g !in s.groups then (s, Fail(GroupNotFound))
    else if !IsMember(s, g, requester) then (s, Fail(NotAMember))
    else if IsAdmin(s, g, requester) then (s, Fail(AdminCannotLeave))
    else (s.(members := s.members - {(g, requester)}), Pass)
  }

  // ---------------------------------------------------------------
  // Properties relating the operations
  // ---------------------------------------------------------------

  /** A group appears in the user's listing exactly when the detail view
      would show it to that user. */
  lemma ListedIffVisible(s: State, u: UserId, g: GroupId)
    ensures g in ListGroups(s, u) <==> DetailGet(s, u, g).Ok?
  {
  }

  /** Creating a group gives it exactly one member, its creator, as an
      admin who may invite others. */
  lemma {:induction false} CreateMakesCreatorSoleAdmin(s: State, cfg: Config, u: UserId, input: GroupInput, newId: GroupId)
    requires Valid(s) && u in s.users && newId !in s.groups
    requires CreateGroup(s, cfg, u, input, newId).1.Ok?
    ensures var s' := CreateGroup(s, cfg, u, input, newId).0;
      MembersOf(s', newId) == {u} && s'.members[(newId, u)] == Member(Admin, true)
      && Valid(s')
  {
    var s' := CreateGroup(s, cfg, u, input, newId).0;
    InstallGroup(s, s', u, newId);
  }

  /** Storing a new group with its creator as the one member keeps the
      tables consistent and gives the group exactly that member. */
  lemma InstallGroup(s: State, s': State, u: UserId, newId: GroupId)
    requires Valid(s) && u in s.users && newId !in s.groups
    requires s'.users == s.users && newId in s'.groups
    requires s'.groups == s.groups[newId := s'.groups[newId]] && s'.groups[newId].createdBy == u
    requires s'.members == s.members[(newId, u) := Member(Admin, true)]
    ensures MembersOf(s', newId) == {u} && Valid(s')
  {
    assert forall k :: k in s.members ==> k.0 != newId;
    forall v | v in MembersOf(s', newId) ensures v == u {
      assert (newId, v) in s'.members;
    }
    assert u in MembersOf(s', newId);
  }

  /** A successful creation keeps the creator within the cap of 10
      active groups. */
  lemma {:induction false} CreateRespectsCap(s: State, cfg: Config, u: UserId, input: GroupInput, newId: GroupId)
    requires newId !in s.groups
    requires CreateGroup(s, cfg, u, input, newId).1.Ok?
    ensures |ActiveGroupsOf(CreateGroup(s, cfg, u, input, newId).0, u)| <= MaxActiveGroups
  {
    var s' := CreateGroup(s, cfg, u, input, newId).0;
    OneMoreGroup(s, s', u, newId);
  }

  /** What passing `validate` on a creation means for the creator. */
  lemma PassedValidation(s: State, u: UserId, name: string)
    requires ValidateGroup(s, Some(u), None, Some(name)) == Pass && name != []
    ensures |ActiveGroupsOf(s, u)| < MaxActiveGroups && !NameTaken(s, u, name, None)
  {
  }

  /** Storing one more group adds at most that group to a creator's
      active groups. */
  lemma OneMoreGroup(s: State, s': State, u: UserId, newId: GroupId)
    requires newId in s'.groups && s'.groups == s.groups[newId := s'.groups[newId]]
    ensures |ActiveGroupsOf(s', u)| <= |ActiveGroupsOf(s, u)| + 1
  {
    var a := ActiveGroupsOf(s', u);
    var b := ActiveGroupsOf(s, u) + {newId};
    forall g | g in a ensures g in b {
      if g != newId {
        assert s'.groups[g] == s.groups[g];
      }
    }
    assert b == a + (b - a);
  }

  /** Creating a group keeps every creator's active group names distinct
      up to case. */
  lemma {:induction false} CreateKeepsNamesUnique(s: State, cfg: Config, u: UserId, input: GroupInput, newId: GroupId)
    requires newId !in s.groups && UniqueActiveNames(s)
    requires CreateGroup(s, cfg, u, input, newId).1.Ok?
    ensures UniqueActiveNames(CreateGroup(s, cfg, u, input, newId).0)
  {
    var s' := CreateGroup(s, cfg, u, input, newId).0;
    InsertKeepsNamesUnique(s, s', u, newId);
  }

  /** Storing a group whose name no other active group of its creator
      carries keeps names unique. */
  lemma InsertKeepsNamesUnique(s: State, s': State, u: UserId, newId: GroupId)
    requires UniqueActiveNames(s) && newId !in s.groups && newId in s'.groups
    requires s'.groups == s.groups[newId := s'.groups[newId]] && s'.groups[newId].createdBy == u
    requires !NameTaken(s, u, s'.groups[newId].name, None)
    ensures UniqueActiveNames(s')
  {
    var name := s'.groups[newId].name;
    forall g1, g2 |
      g1 in s'.groups && g2 in s'.groups && g1 != g2
      && s'.groups[g1].isActive && s'.groups[g2].isActive
      && s'.groups[g1].createdBy == s'.groups[g2].createdBy
      ensures !EqualsIgnoringCase(s'.groups[g1].name, s'.groups[g2].name)
    {
      if g1 == newId {
        assert s'.groups[g2] == s.groups[g2];
        assert !EqualsIgnoringCase(s.groups[g2].name, name);
      } else if g2 == newId {
        assert s'.groups[g1] == s.groups[g1];
        assert !EqualsIgnoringCase(s.groups[g1].name, name);
      } else {
        assert s'.groups[g1] == s.groups[g1] && s'.groups[g2] == s.groups[g2];
      }
    }
  }

  /** A soft delete keeps names unique: it only deactivates a group. */
  lemma DeleteKeepsNamesUnique(s: State, u: UserId, g: GroupId)
    requires UniqueActiveNames(s)
    ensures UniqueActiveNames(DetailDelete(s, u, g).0)
  {
  }

  /** Adding a member never pushes a group past its member limit. */
  lemma {:induction false} AddKeepsCapacity(s: State, cfg: Config, requester: UserId, g: GroupId, req: AddRequest, h: GroupId)
    requires MemberCount(s, h) <= cfg.maxMembers
    ensures MemberCount(AddMember(s, cfg, requester, g, req).0, h) <= cfg.maxMembers
  {
    var r := AddMember(s, cfg, requester, g, req);
    if r.1.Ok? && h == g {
      assert MembersOf(r.0, g) == MembersOf(s, g) + {req.userId.id};
      assert req.userId.id !in MembersOf(s, g);
    } else if r.1.Ok? {
      assert MembersOf(r.0, h) == MembersOf(s, h);
    }
  }

  /** Adding oneself is always refused, even though `validate_user_id`
      never sees the requester here: either the requester may not invite,
      or the duplicate-membership check fires. */
  lemma SelfAddRefused(s: State, cfg: Config, requester: UserId, g: GroupId, req: AddRequest)
    requires req.userId == AUuid(requester)
    ensures AddMember(s, cfg, requester, g, req).1.Err?
  {
  }

  /** A body whose `user_id` is missing or not a UUID is answered 400
      with that field's error, and nothing is stored. */
  lemma BadUserIdRefused(s: State, cfg: Config, requester: UserId, g: GroupId, req: AddRequest)
    requires g in s.groups && IsMember(s, g, requester) && s.members[(g, requester)].canInvite
    requires !req.userId.AUuid?
    ensures var r := AddMember(s, cfg, requester, g, req);
      && r.0 == s
      && r.1.Err? && StatusOf(r.1.error) == BadRequest400
      && r.1.error.InvalidMember? && r.1.error.memberError.MemberFields?
      && (UserIdMissing in r.1.error.memberError.errors <==> req.userId.Absent?)
      && (UserIdNotUuid in r.1.error.memberError.errors <==> req.userId.NotAUuid?)
  {
  }

  /** Removing a member never takes away a group's last admin. */
  lemma RemoveKeepsAdmin(s: State, requester: UserId, g: GroupId, target: Option<UserId>, h: GroupId)
    requires HasAdmin(s, h)
    ensures HasAdmin(RemoveMember(s, requester, g, target).0, h)
  {
    var r := RemoveMember(s, requester, g, target);
    if r.1.Pass? {
      var a :| IsAdmin(s, h, a);
      if h == g {
        assert IsAdmin(r.0, g, requester);
      } else {
        assert IsAdmin(r.0, h, a);
      }
    }
  }

  /** Leaving never takes away a group's last admin. */
  lemma LeaveKeepsAdmin(s: State, requester: UserId, g: GroupId, h: GroupId)
    requires HasAdmin(s, h)
    ensures HasAdmin(Leave(s, requester, g).0, h)
  {
    var r := Leave(s, requester, g);
    if r.1.Pass? {
      var a :| IsAdmin(s, h, a);
      assert IsAdmin(r.0, h, a);
    }
  }
}

=== FILE: otp.dfy ===
/** One-time passwords: `OneTimePassword` and its validity window from
    `account/models.py`, `generate_otp` and `create_otp_for_user` from
    `account/utils.py`, the expiry sweep of `account/tasks.py`, and the
    verify and resend serializers of `account/serializers.py`. Times are
    integer seconds. */
module Otp {
  import opened Outcomes
  import opened Text
  import opened Accounts

  /** An OTP is valid for five minutes, boundary included. */
  const ValidFor := 300

  /** A new OTP may be requested once a minute. */
  const ResendAfter := 60

  const CodeLength := 6

  /** A `OneTimePassword` row; `user` is a one-to-one key. */
  datatype OneTimePassword = OneTimePassword(user: UserId, code: string, createdAt: int)

  /** `OneTimePassword.is_valid`: a code is valid exactly when the
      expiry sweep would keep it. */
  predicate IsValid(o: OneTimePassword, now: int): (r: bool)
    ensures r <==> !Expired(o, now)
  {
    now - o.createdAt <= ValidFor
  }

  /** Validity is a window: a code is valid from its creation up to
      five minutes later, boundary included, and never again after. */
  lemma ValidityWindow(o: OneTimePassword, now: int, later: int)
    requires o.createdAt <= now <= later
    ensures IsValid(o, o.createdAt + ValidFor) && !IsValid(o, o.createdAt + ValidFor + 1)
    ensures IsValid(o, later) ==> IsValid(o, now)
  {
  }

  /** The user and OTP tables. */
  datatype Tables = Tables(users: seq<User>, otps: seq<OneTimePassword>)

  /** At most one OTP per user (the one-to-one key). */
  predicate OnePerUser(otps: seq<OneTimePassword>) {
    forall i, j :: 0 <= i < |otps| && 0 <= j < |otps| && i != j ==> otps[i].user != otps[j].user
  }

  /** The OTP row of user `u`, if any. */
  function OtpOf(otps: seq<OneTimePassword>, u: UserId): (r: Option<OneTimePassword>)
    ensures r.None? <==> forall i :: 0 <= i < |otps| ==> otps[i].user != u
    ensures r.Some? ==> r.value in otps && r.value.user == u
  {
    if otps == [] then None
    else if otps[0].user == u then Some(otps[0])
    else
      var r := OtpOf(otps[1..], u);
      assert forall i :: 1 <= i < |otps| ==> otps[i] == otps[1..][i - 1];
      r
  }

  // ---------------------------------------------------------------
  // generate_otp
  // ---------------------------------------------------------------

  const Digits := "0123456789"

  /** `generate_otp`: six characters, each chosen from the decimal
      digits; the choice of each digit is left open (it is random). */
  method GenerateOtp() returns (code: string)
    ensures |code| == CodeLength
    ensures IsDigits(code)
  {
    code := "";
    while |code| < CodeLength
      invariant |code| <= CodeLength
      invariant forall i :: 0 <= i < |code| ==> IsDigit(code[i])
    {
      assert Digits[0] in Digits;
      var c :| c in Digits;
      code := code + [c];
    }
  }

  // ---------------------------------------------------------------
  // create_otp_for_user
  // ---------------------------------------------------------------

  /** The first user whose e-mail equals `email` exactly
      (`User.objects.get(email=...)`; e-mails are unique). */
  function FindUserByEmail(users: seq<User>, email: string): (r: Option<User>)
    ensures r.None? <==> forall i :: 0 <= i < |users| ==> users[i].email != email
    ensures r.Some? ==> r.value in users && r.value.email == email
  {
    if users == [] then None
    else if users[0].email == email then Some(users[0])
    else
      var r := FindUserByEmail(users[1..], email);
      assert forall i :: 1 <= i < |users| ==> users[i] == users[1..][i - 1];
      r
  }

  /** `update_or_create(user=..., defaults={code, created_at})`: the
      user's row is overwritten in place if it exists and appended
      otherwise; no other user's row changes. */
  function Upsert(otps: seq<OneTimePassword>, o: OneTimePassword): (r: seq<OneTimePassword>)
    ensures OtpOf(r, o.user) == Some(o)
    ensures forall v :: v != o.user ==> OtpOf(r, v) == OtpOf(otps, v)
    ensures forall x :: x in r ==> x == o || x in otps
  {
    if otps == [] then [o]
    else if otps[0].user == o.user then [o] + otps[1..]
    else [otps[0]] + Upsert(otps[1..], o)
  }

  lemma TailOnePerUser(otps: seq<OneTimePassword>)
    requires OnePerUser(otps) && otps != []
    ensures OnePerUser(otps[1..])
    ensures forall x :: x in otps[1..] ==> x.user != otps[0].user
  {
    var tail := otps[1..];
    forall i, j | 0 <= i < |tail| && 0 <= j < |tail| && i != j ensures tail[i].user != tail[j].user {
      assert tail[i] == otps[i + 1] && tail[j] == otps[j + 1];
    }
    forall x | x in tail ensures x.user != otps[0].user {
      var k :| 0 <= k < |tail| && tail[k] == x;
      assert otps[k + 1] == x;
    }
  }

  /** Upserting keeps at most one row per user. */
  lemma {:induction false} UpsertKeepsOnePerUser(otps: seq<OneTimePassword>, o: OneTimePassword)
    requires OnePerUser(otps)
    ensures OnePerUser(Upsert(otps, o))
  {
    if otps != [] {
      TailOnePerUser(otps);
      var r := Upsert(otps, o);
      if otps[0].user == o.user {
        forall i, j | 0 <= i < |r| && 0 <= j < |r| && i != j ensures r[i].user != r[j].user {
          if i > 0 && j > 0 {
            assert r[i] == otps[i] && r[j] == otps[j];
          } else {
            var k := if i == 0 then j else i;
            assert r[k] == otps[k] && k > 0;
          }
        }
      } else {
        var rest := Upsert(otps[1..], o);
        UpsertKeepsOnePerUser(otps[1..], o);
        assert r == [otps[0]] + rest;
        forall i, j | 0 <= i < |r| && 0 <= j < |r| && i != j ensures r[i].user != r[j].user {
          if i > 0 && j > 0 {
            assert r[i] == rest[i - 1] && r[j] == rest[j - 1];
          } else {
            var k := if i == 0 then j else i;
            assert r[k] == rest[k - 1];
            assert r[k] in rest;
          }
        }
      }
    }
  }

  datatype CreateOtpError = NoSuchUser | AlreadyVerified | SaveFailed

  /** The mail job queued for the code: the user's names, address and
      the code. */
  datatype OtpMail = OtpMail(firstName: string, lastName: string, email: string, code: string)

  /** `create_otp_for_user`: looks the user up by e-mail; refuses an
      unknown user, and a user who is both verified and active, without
      touching any OTP; otherwise stores a fresh code for the user (the
      single row, created or overwritten, stamped `now`) and queues the
      mail with that same code, unless the write fails, in which case
      nothing is stored and nothing is mailed. `saveFails` stands for a
      database error on the write. */
  method CreateOtpForUser(t: Tables, email: string, now: int, saveFails: bool)
    returns (t': Tables, r: Result<string, CreateOtpError>, mail: Option<OtpMail>)
    ensures r == Err(NoSuchUser) <==> FindUserByEmail(t.users, email).None?
    ensures r == Err(AlreadyVerified) <==>
      FindUserByEmail(t.users, email).Some? &&
      FindUserByEmail(t.users, email).value.isVerified && FindUserByEmail(t.users, email).value.isActive
    ensures r.Err? ==> t' == t && mail.None?
    ensures r.Ok? ==>
      var u := FindUserByEmail(t.users, email).value;
      && !(u.isVerified && u.isActive) && !saveFails
      && |r.value| == CodeLength && IsDigits(r.value)
      && t'.users == t.users
      && OtpOf(t'.otps, u.id) == Some(OneTimePassword(u.id, r.value, now))
      && (forall v :: v != u.id ==> OtpOf(t'.otps, v) == OtpOf(t.otps, v))
      && (OnePerUser(t.otps) ==> OnePerUser(t'.otps))
      && mail == Some(OtpMail(u.firstName, u.lastName, u.email, r.value))
    ensures (FindUserByEmail(t.users, email).Some? && !(FindUserByEmail(t.users, email).value.isVerified &&
      FindUserByEmail(t.users, email).value.isActive)) ==> (r.Ok? <==> !saveFails)
  {
    var found := FindUserByEmail(t.users, email);
    if found.None? {
      return t, Err(NoSuchUser), None;
    }
    var u := found.value;
    if u.isVerified && u.isActive {
      return t, Err(AlreadyVerified), None;
    }
    var code := GenerateOtp();
    if saveFails {
      return t, Err(SaveFailed), None;
    }
    if OnePerUser(t.otps) {
      UpsertKeepsOnePerUser(t.otps, OneTimePassword(u.id, code, now));
    }
    t' := t.(otps := Upsert(t.otps, OneTimePassword(u.id, code, now)));
    r := Ok(code);
    mail := Some(OtpMail(u.firstName, u.lastName, u.email, code));
  }

  // ---------------------------------------------------------------
  // cleanup_expired_otps
  // ---------------------------------------------------------------

  /** The sweep's cut-off: created before five minutes ago. */
  predicate Expired(o: OneTimePassword, now: int) {
    o.createdAt < now - ValidFor
  }

  /** `cleanup_expired_otps`: deletes the expired rows and reports how
      many it deleted; the rows kept stay in order. */
  function Cleanup(otps: seq<OneTimePassword>, now: int): (r: (seq<OneTimePassword>, nat))
    ensures forall o :: o in r.0 <==> o in otps && !Expired(o, now)
    ensures |r.0| + r.1 == |otps|
    ensures r.1 == ExpiredCount(otps, now)
  {
    if otps == [] then ([], 0)
    else
      var last := otps[|otps| - 1];
      var (kept, deleted) := Cleanup(otps[..|otps| - 1], now);
      ExpiredCountStep(otps, now);
      assert forall o :: o in otps <==> o in otps[..|otps| - 1] || o == last;
      if Expired(last, now) then (kept, deleted + 1) else (kept + [last], deleted)
  }

  /** The number of expired rows. */
  function ExpiredCount(otps: seq<OneTimePassword>, now: int): nat {
    |set i | 0 <= i < |otps| && Expired(otps[i], now)|
  }

  lemma ExpiredCountStep(otps: seq<OneTimePassword>, now: int)
    requires otps != []
    ensures var n := |otps| - 1;
      ExpiredCount(otps, now) == ExpiredCount(otps[..n], now) + (if Expired(otps[n], now) then 1 else 0)
  {
    var n := |otps| - 1;
    var init := otps[..n];
    var all := set i | 0 <= i < |otps| && Expired(otps[i], now);
    var before := set i | 0 <= i < |init| && Expired(init[i], now);
    var extra: set<int> := if Expired(otps[n], now) then {n} else {};
    forall i | i in all ensures i in before + extra {
      if i < n {
        assert init[i] == otps[i];
      }
    }
    forall i | i in before + extra ensures i in all {
      if i < n {
        assert init[i] == otps[i];
      }
    }
    assert all == before + extra;
    assert before !! extra;
  }

  /** The sweep and `is_valid` agree: a row survives exactly when it is
      still valid, so one exactly five minutes old survives, and after a
      sweep every remaining row is valid. */
  lemma CleanupKeepsExactlyValid(otps: seq<OneTimePassword>, now: int)
    ensures forall o :: o in Cleanup(otps, now).0 <==> o in otps && IsValid(o, now)
    ensures forall o :: o in otps && o.createdAt == now - ValidFor ==> o in Cleanup(otps, now).0
  {
  }

  /** Cleaning twice at the same time deletes nothing the second time. */
  lemma CleanupIdempotent(otps: seq<OneTimePassword>, now: int)
    ensures Cleanup(Cleanup(otps, now).0, now) == (Cleanup(otps, now).0, 0)
  {
    var kept := Cleanup(otps, now).0;
    assert ExpiredCount(kept, now) == 0 by {
      assert (set i | 0 <= i < |kept| && Expired(kept[i], now)) == {} by {
        forall i | 0 <= i < |kept| ensures !Expired(kept[i], now) {
          assert kept[i] in kept;
        }
      }
    }
    KeepAllWhenNoneExpired(kept, now);
  }

  lemma {:induction false} KeepAllWhenNoneExpired(otps: seq<OneTimePassword>, now: int)
    requires forall o :: o in otps ==> !Expired(o, now)
    ensures Cleanup(otps, now).0 == otps
  {
    if otps != [] {
      var n := |otps| - 1;
      assert otps[n] in otps;
      KeepAllWhenNoneExpired(otps[..n], now);
      assert otps == otps[..n] + [otps[n]];
    }
  }

  // ---------------------------------------------------------------
  // VerifyOTPSerializer
  // ---------------------------------------------------------------

  datatype VerifyError =
    | WrongLength
    | NotDigits
    | InvalidCode
    | AmbiguousCode
    | CodeExpired
    | UserAlreadyVerified

  /** The positions of the rows holding `code`. */
  function RowsWithCode(otps: seq<OneTimePassword>, code: string): set<nat> {
    set i | 0 <= i < |otps| && otps[i].code == code
  }

  /** The first position holding `code`, if any. */
  function FirstWithCode(otps: seq<OneTimePassword>, code: string): (r: Option<nat>)
    ensures r.None? <==> forall i :: 0 <= i < |otps| ==> otps[i].code != code
    ensures r.Some? ==> r.value < |otps| && otps[r.value].code == code
  {
    if otps == [] then None
    else if otps[0].code == code then Some(0)
    else match FirstWithCode(otps[1..], code)
      case None =>
        assert forall i :: 1 <= i < |otps| ==> otps[i] == otps[1..][i - 1];
        None
      case Some(i) => Some(i + 1)
  }

  /** The user has a row and it is verified. */
  predicate UserIsVerified(users: seq<User>, u: UserId) {
    exists i | 0 <= i < |users| :: users[i].id == u && users[i].isVerified
  }

  /** The row at position `i` removed. */
  function DeleteAt(otps: seq<OneTimePassword>, i: nat): (r: seq<OneTimePassword>)
    requires i < |otps|
    ensures |r| == |otps| - 1
    ensures forall k :: 0 <= k < i ==> r[k] == otps[k]
    ensures forall k :: i <= k < |r| ==> r[k] == otps[k + 1]
  {
    otps[..i] + otps[i + 1..]
  }

  /** `VerifyOTPSerializer.validate_code`: the code must be exactly six
      characters and all digits; the row holding it is looked up (no row
      is an invalid code; several rows make `get` raise, which is not
      caught); an expired row is deleted and refused; a row whose user is
      already verified is refused. Only the expired case changes the
      tables. */
  function VerifyCode(t: Tables, code: string, now: int): (r: (Tables, Result<OneTimePassword, VerifyError>))
    ensures r.1 != Err(CodeExpired) ==> r.0 == t
    ensures r.1 == Err(WrongLength) <==> |code| != CodeLength
    ensures r.1 == Err(NotDigits) <==> |code| == CodeLength && !IsDigits(code)
    ensures r.1 == Err(InvalidCode) <==> |code| == CodeLength && IsDigits(code) && RowsWithCode(t.otps, code) == {}
    ensures r.1 == Err(AmbiguousCode) <==> |code| == CodeLength && IsDigits(code) && |RowsWithCode(t.otps, code)| > 1
    ensures r.1 == Err(CodeExpired) ==>
      exists i :: i in RowsWithCode(t.otps, code) && !IsValid(t.otps[i], now) && r.0 == t.(otps := DeleteAt(t.otps, i))
    ensures |code| == CodeLength && IsDigits(code) && |RowsWithCode(t.otps, code)| == 1 ==>
      FirstWithCode(t.otps, code).Some? &&
      var i := FirstWithCode(t.otps, code).value;
      && (!IsValid(t.otps[i], now) ==> r == (t.(otps := DeleteAt(t.otps, i)), Err(CodeExpired)))
      && (r.1 == Err(UserAlreadyVerified) <==> IsValid(t.otps[i], now) && UserIsVerified(t.users, t.otps[i].user))
      && (r.1.Ok? <==> IsValid(t.otps[i], now) && !UserIsVerified(t.users, t.otps[i].user))
    ensures r.1.Ok? ==>
      && r.1.value in t.otps && r.1.value.code == code
      && RowsWithCode(t.otps, code) != {} && |RowsWithCode(t.otps, code)| <= 1
      && IsValid(r.1.value, now) && !UserIsVerified(t.users, r.1.value.user)
  {
    if |code| != CodeLength then (t, Err(WrongLength))
    else if !IsDigits(code) then (t, Err(NotDigits))
    else
      var rows := RowsWithCode(t.otps, code);
      if rows == {} then (t, Err(InvalidCode))
      else if |rows| > 1 then (t, Err(AmbiguousCode))
      else
        var i := FirstWithCode(t.otps, code).value;
        var o := t.otps[i];
        if !IsValid(o, now) then (t.(otps := DeleteAt(t.otps, i)), Err(CodeExpired))
        else if UserIsVerified(t.users, o.user) then (t, Err(UserAlreadyVerified))
        else (t, Ok(o))
  }

  /** After a sweep at the same time, verification never meets an
      expired code. */
  lemma SweptCodesNeverExpired(t: Tables, code: string, now: int)
    ensures VerifyCode(t.(otps := Cleanup(t.otps, now).0), code, now).1 != Err(CodeExpired)
  {
    var kept := Cleanup(t.otps, now).0;
    forall i | 0 <= i < |kept| ensures IsValid(kept[i], now) {
      assert kept[i] in kept;
    }
  }

  /** A code just stored for an unverified user is accepted within five
      minutes, as long as no other row holds the same code. */
  lemma FreshCodeVerifies(t: Tables, u: User, code: string, createdAt: int, now: int)
    requires OnePerUser(t.otps)
    requires |code| == CodeLength && IsDigits(code)
    requires forall o :: o in t.otps && o.user != u.id ==> o.code != code
    requires !UserIsVerified(t.users, u.id)
    requires createdAt <= now <= createdAt + ValidFor
    ensures var t' := t.(otps := Upsert(t.otps, OneTimePassword(u.id, code, createdAt)));
      VerifyCode(t', code, now) == (t', Ok(OneTimePassword(u.id, code, createdAt)))
  {
    var o := OneTimePassword(u.id, code, createdAt);
    var otps := Upsert(t.otps, o);
    UpsertKeepsOnePerUser(t.otps, o);
    assert o in otps;
    var k :| 0 <= k < |otps| && otps[k] == o;
    forall i | i in RowsWithCode(otps, code) ensures i == k {
      assert otps[i] in otps;
      assert otps[i].user == u.id;
    }
    SingleRowVerifies(t.(otps := otps), code, now, k);
  }

  /** A well-formed code held by exactly one valid row of an unverified
      user is accepted, and nothing changes. */
  lemma SingleRowVerifies(t: Tables, code: string, now: int, k: nat)
    requires |code| == CodeLength && IsDigits(code)
    requires k < |t.otps| && t.otps[k].code == code
    requires forall i :: i in RowsWithCode(t.otps, code) ==> i == k
    requires IsValid(t.otps[k], now) && !UserIsVerified(t.users, t.otps[k].user)
    ensures VerifyCode(t, code, now) == (t, Ok(t.otps[k]))
  {
    assert k in RowsWithCode(t.otps, code);
    assert RowsWithCode(t.otps, code) == {k};
    var first := FirstWithCode(t.otps, code);
    assert first.Some?;
    assert first.value in RowsWithCode(t.otps, code);
  }

  // ---------------------------------------------------------------
  // ResendOTPSerializer
  // ---------------------------------------------------------------

  datatype ResendError = UnknownUser | UserVerified | TooSoon

  /** `ResendOTPSerializer.validate_email`: the user with exactly this
      e-mail must exist and be unverified, and any OTP of theirs must be
      at least a minute old. */
  function Resend(t: Tables, email: string, now: int): (r: Result<User, ResendError>)
    ensures r == Err(UnknownUser) <==> FindUserByEmail(t.users, email).None?
    ensures r == Err(UserVerified) <==>
      FindUserByEmail(t.users, email).Some? && FindUserByEmail(t.users, email).value.isVerified
    ensures r == Err(TooSoon) <==>
      && FindUserByEmail(t.users, email).Some? && !FindUserByEmail(t.users, email).value.isVerified
      && var o := OtpOf(t.otps, FindUserByEmail(t.users, email).value.id);
      && o.Some? && now - o.value.createdAt < ResendAfter
    ensures r.Ok? ==> r.value.email == email && !r.value.isVerified && r.value in t.users
  {
    match FindUserByEmail(t.users, email)
    case None => Err(UnknownUser)
    case Some(u) =>
      if u.isVerified then Err(UserVerified)
      else match OtpOf(t.otps, u.id)
        case Some(o) => if now - o.createdAt < ResendAfter then Err(TooSoon) else Ok(u)
        case None => Ok(u)
  }

  /** The rate limit in terms of a code just created: within the minute
      a resend is refused, from the minute on it is allowed. */
  method CreateThenResend(t: Tables, email: string, created: int, saveFails: bool, later: int)
    returns (r: Result<User, ResendError>)
    requires later >= created
    ensures var u := FindUserByEmail(t.users, email);
      u.Some? && !u.value.isVerified && !saveFails ==>
        (r == Err(TooSoon) <==> later - created < ResendAfter)
  {
    var t', c, _ := CreateOtpForUser(t, email, created, saveFails);
    r := Resend(t', email, later);
  }
}

=== FILE: outcomes.dfy ===
/** Small value types shared by every part of the model: optional values,
    validation outcomes and the HTTP status codes the views answer with. */
module Outcomes {

  /** A value that may be missing (Python's `None`). */
  datatype Option<+T> = None | Some(value: T)

  /** The result of a validator or view: a value, or the first error met. */
  datatype Result<+T, +E> = Ok(value: T) | Err(error: E)

  /** The result of a check that produces no value: it passes, or fails
      with the first error met. */
  datatype Check<+E> = Pass | Fail(error: E)

  /** The HTTP status codes used by the REST views. */
  datatype Status =
    | Ok200
    | Created201
    | NoContent204
    | BadRequest400
    | Forbidden403
    | NotFound404
}

=== FILE: private_chat.dfy ===
/** One-to-one chat: the `PrivateChatRoom` and `Message` models of
    `chat/models.py`, the views of `chat/views/private_views.py` and the
    unread counter of `chat/serializers/one_to_one.py`, over an immutable
    snapshot of the user, room and message tables. */
module PrivateChat {
  import opened Outcomes

  /** User ids are UUIDs. Their canonical strings all have the same shape
      (lower-case hex digits and hyphens at fixed places), so ordering by
      `str(id)` is the same as ordering by the UUID's value; a `nat`
      stands for that value. */
  type UserId = nat

  /** Rooms and messages use Django's auto-incremented integer keys. */
  type RoomId = nat
  type MessageId = nat

  /** A `PrivateChatRoom` row: the two participants and the per-side
      "hidden" flags. */
  datatype Room = Room(
    id: RoomId,
    p1: UserId,
    p2: UserId,
    hidden1: bool,
    hidden2: bool,
    createdAt: int)

  /** A `Message` row; timestamps are integer seconds. */
  datatype Message = Message(
    id: MessageId,
    room: RoomId,
    sender: UserId,
    content: string,
    isArchived: bool,
    timestamp: int,
    isRead: bool)

  /** The tables the views read and write, in insertion order, with the
      next value of each auto-incremented key. */
  datatype Db = Db(
    users: set<UserId>,
    rooms: seq<Room>,
    messages: seq<Message>,
    nextRoomId: RoomId,
    nextMessageId: MessageId)

  // ---------------------------------------------------------------
  // Table invariants
  // ---------------------------------------------------------------

  predicate HasRoom(rooms: seq<Room>, id: RoomId) {
    exists r :: r in rooms && r.id == id
  }

  /** A stored room: ordered distinct existing participants, a key below
      the next one, and never hidden on both sides (that state is
      destroyed instead). */
  predicate RoomOk(db: Db, r: Room) {
    && r.p1 < r.p2
    && r.p1 in db.users && r.p2 in db.users
    && r.id < db.nextRoomId
    && !(r.hidden1 && r.hidden2)
  }

  /** Room keys are unique and so is the `(participant_1, participant_2)`
      pair (`unique_together`). */
  predicate RoomsDistinct(rooms: seq<Room>) {
    forall i, j :: 0 <= i < |rooms| && 0 <= j < |rooms| && i != j ==>
      rooms[i].id != rooms[j].id && (rooms[i].p1 != rooms[j].p1 || rooms[i].p2 != rooms[j].p2)
  }

  /** Every message belongs to a stored room and has a unique key. */
  predicate MessagesOk(db: Db) {
    && (forall m :: m in db.messages ==> m.id < db.nextMessageId && HasRoom(db.rooms, m.room))
    && KeysDistinct(db.messages)
  }

  /** No two messages share a key. */
  predicate KeysDistinct(ms: seq<Message>) {
    forall i, j :: 0 <= i < j < |ms| ==> ms[i].id != ms[j].id
  }

  predicate Valid(db: Db) {
    && (forall r :: r in db.rooms ==> RoomOk(db, r))
    && RoomsDistinct(db.rooms)
    && MessagesOk(db)
  }

  // ---------------------------------------------------------------
  // Model behaviour
  // ---------------------------------------------------------------

  /** `PrivateChatRoom.save`: puts the lower participant id first,
      swapping the two participants exactly when they are out of order;
      the hidden flags and the other fields stay where they are. */
  function Save(r: Room): (r': Room)
    ensures r'.p1 <= r'.p2
    ensures r.p1 > r.p2 <==> (r'.p1, r'.p2) == (r.p2, r.p1) && r'.p1 != r.p1
    ensures r.p1 <= r.p2 ==> r' == r
    ensures r' == r.(p1 := r'.p1, p2 := r'.p2)
  {
    if r.p1 > r.p2 then r.(p1 := r.p2, p2 := r.p1) else r
  }

  /** `sorted([user, other], key=str(id))` in `start_private_chat`. */
  function OrderPair(a: UserId, b: UserId): (p: (UserId, UserId))
    ensures p.0 <= p.1
    ensures {p.0, p.1} == {a, b}
  {
    if a <= b then (a, b) else (b, a)
  }

  /** Both argument orders give the same pair. */
  lemma OrderPairSymmetric(a: UserId, b: UserId)
    ensures OrderPair(a, b) == OrderPair(b, a)
  {
  }

  /** A pair ordered by the view is stored unchanged by `save`: the view
      and the model agree on the canonical order. */
  lemma SaveKeepsViewOrder(a: UserId, b: UserId, id: RoomId, h1: bool, h2: bool, t: int)
    ensures var p := OrderPair(a, b);
      Save(Room(id, p.0, p.1, h1, h2, t)) == Room(id, p.0, p.1, h1, h2, t)
  {
  }

  /** `Message.objects.create`: a new message is unread and not archived. */
  function NewMessage(id: MessageId, room: RoomId, sender: UserId, content: string, now: int): (m: Message)
    ensures !m.isRead && !m.isArchived
    ensures m.id == id && m.room == room && m.sender == sender && m.content == content && m.timestamp == now
  {
    Message(id, room, sender, content, false, now, false)
  }

  /** Messages are stored oldest first (`ordering = ['timestamp']`). */
  predicate Chronological(ms: seq<Message>) {
    forall i, j :: 0 <= i < j < |ms| ==> ms[i].timestamp <= ms[j].timestamp
  }

  /** Stores a new message under the next key. */
  function AppendMessage(db: Db, room: RoomId, sender: UserId, content: string, now: int): (r: (Db, Message))
    ensures r.0 == db.(messages := db.messages + [r.1], nextMessageId := db.nextMessageId + 1)
    ensures r.1 == NewMessage(db.nextMessageId, room, sender, content, now)
  {
    var m := NewMessage(db.nextMessageId, room, sender, content, now);
    (db.(messages := db.messages + [m], nextMessageId := db.nextMessageId + 1), m)
  }

  /** Appending with a clock that has not gone backwards keeps the table
      in timestamp order, so storage order is the default ordering. */
  lemma AppendKeepsChronological(db: Db, room: RoomId, sender: UserId, content: string, now: int)
    requires Chronological(db.messages)
    requires forall m :: m in db.messages ==> m.timestamp <= now
    ensures Chronological(AppendMessage(db, room, sender, content, now).0.messages)
  {
    var ms := AppendMessage(db, room, sender, content, now).0.messages;
    forall i, j | 0 <= i < j < |ms| ensures ms[i].timestamp <= ms[j].timestamp {
      if j == |ms| - 1 {
        assert ms[i] in db.messages;
      }
    }
  }

  /** Appending a message to a stored room keeps the tables valid. */
  lemma AppendKeepsValid(db: Db, room: RoomId, sender: UserId, content: string, now: int)
    requires Valid(db) && HasRoom(db.rooms, room)
    ensures Valid(AppendMessage(db, room, sender, content, now).0)
  {
    var db' := AppendMessage(db, room, sender, content, now).0;
    forall i, j | 0 <= i < j < |db'.messages| ensures db'.messages[i].id != db'.messages[j].id {
      if j == |db'.messages| - 1 {
        assert db'.messages[i] in db.messages;
      }
    }
    forall r | r in db'.rooms ensures RoomOk(db', r) {
      assert RoomOk(db, r);
    }
  }

  // ---------------------------------------------------------------
  // Lookups
  // ---------------------------------------------------------------

  /** `PrivateChatRoom.objects.get(id=...)`: the position of the room
      with that key, if any. */
  function FindRoom(rooms: seq<Room>, id: RoomId): (r: Option<nat>)
    ensures r.Some? ==> r.value < |rooms| && rooms[r.value].id == id
    ensures r.None? <==> !HasRoom(rooms, id)
  {
    if rooms == [] then None
    else if rooms[0].id == id then Some(0)
    else match FindRoom(rooms[1..], id)
      case None => None
      case Some(i) => Some(i + 1)
  }

  /** The position of the room for an ordered participant pair, if any. */
  function FindPair(rooms: seq<Room>, p1: UserId, p2: UserId): (r: Option<nat>)
    ensures r.Some? ==> r.value < |rooms| && rooms[r.value].p1 == p1 && rooms[r.value].p2 == p2
    ensures r.None? <==> forall k :: 0 <= k < |rooms| ==> rooms[k].p1 != p1 || rooms[k].p2 != p2
  {
    if rooms == [] then None
    else if rooms[0].p1 == p1 && rooms[0].p2 == p2 then Some(0)
    else match FindPair(rooms[1..], p1, p2)
      case None =>
        assert forall k :: 1 <= k < |rooms| ==> rooms[k] == rooms[1..][k - 1];
        None
      case Some(i) => Some(i + 1)
  }

  /** With unique keys, the room found is the only one with that key. */
  lemma FindRoomUnique(rooms: seq<Room>, id: RoomId, k: nat)
    requires RoomsDistinct(rooms)
    requires k < |rooms| && rooms[k].id == id
    ensures FindRoom(rooms, id) == Some(k)
  {
    var i := FindRoom(rooms, id).value;
    assert rooms[i].id == rooms[k].id;
  }

  // ---------------------------------------------------------------
  // start_private_chat
  // ---------------------------------------------------------------

  /** The `user_id` field of the request body after `uuid.UUID` parsing:
      missing or empty, not a UUID, or a UUID. */
  datatype UserIdField = Missing | Malformed | Parsed(id: UserId)

  datatype StartError = UserIdRequired | InvalidUuid | ChatWithSelf | UserNotFound

  /** The HTTP status each start error is answered with. */
  function StartStatus(e: StartError): Status {
    if e == UserNotFound then NotFound404 else BadRequest400
  }

  /** The room a successful start answers with, and whether it was new
      (201) rather than found (200). */
  datatype Started = Started(room: Room, created: bool)

  /** `start_private_chat` as it is evidently meant to behave: the
      errors come in the order missing id, malformed id, self, unknown
      user, and leave the tables unchanged. Otherwise the pair is ordered
      and the room for it is fetched, or created (unhidden, under the
      next key) when there is none, and the answer is that room. The code
      as written never gets to answer with the room; see
      `StartChatAsWritten`. */
  function StartChat(db: Db, user: UserId, other: UserIdField, now: int): (r: (Db, Result<Started, StartError>))
    ensures r.1.Err? ==> r.0 == db
    ensures r.1 == Err(UserIdRequired) <==> other.Missing?
    ensures r.1 == Err(InvalidUuid) <==> other.Malformed?
    ensures r.1 == Err(ChatWithSelf) <==> other == Parsed(user)
    ensures r.1 == Err(UserNotFound) <==> other.Parsed? && other.id != user && other.id !in db.users
    ensures r.1.Err? ==> (StartStatus(r.1.error) == NotFound404 <==> other.Parsed? && other.id != user && other.id !in db.users)
    ensures r.1.Ok? ==>
      && other.Parsed? && other.id != user && other.id in db.users
      && (r.1.value.room.p1, r.1.value.room.p2) == OrderPair(user, other.id)
      && r.1.value.room in r.0.rooms
      && (r.1.value.created <==> FindPair(db.rooms, r.1.value.room.p1, r.1.value.room.p2).None?)
      && (!r.1.value.created ==> r.0 == db && r.1.value.room in db.rooms)
      && (r.1.value.created ==>
            && r.1.value.room == Room(db.nextRoomId, r.1.value.room.p1, r.1.value.room.p2, false, false, now)
            && r.0 == db.(rooms := db.rooms + [r.1.value.room], nextRoomId := db.nextRoomId + 1))
  {
    match other
    case Missing => (db, Err(UserIdRequired))
    case Malformed => (db, Err(InvalidUuid))
    case Parsed(o) =>
      if o == user then (db, Err(ChatWithSelf))
      else if o !in db.users then (db, Err(UserNotFound))
      else
        var p := OrderPair(user, o);
        match FindPair(db.rooms, p.0, p.1)
        case Some(i) => (db, Ok(Started(db.rooms[i], false)))
        case None =>
          var room := Save(Room(db.nextRoomId, p.0, p.1, false, false, now));
          (db.(rooms := db.rooms + [room], nextRoomId := db.nextRoomId + 1), Ok(Started(room, true)))
  }

  /** Starting a chat from either side gives the same room and the same
      tables. */
  lemma StartChatSymmetric(db: Db, a: UserId, b: UserId, now: int)
    requires a in db.users && b in db.users
    ensures StartChat(db, a, Parsed(b), now) == StartChat(db, b, Parsed(a), now)
  {
  }

  /** Starting a chat keeps the tables valid: in particular at most one
      room exists per participant pair. */
  lemma {:induction false} StartChatKeepsValid(db: Db, user: UserId, other: UserIdField, now: int)
    requires Valid(db) && user in db.users
    ensures Valid(StartChat(db, user, other, now).0)
  {
    var r := StartChat(db, user, other, now);
    if r.1.Ok? && r.1.value.created {
      var db' := r.0;
      var room := r.1.value.room;
      forall x | x in db'.rooms ensures RoomOk(db', x) {
        if x != room {
          assert RoomOk(db, x);
        }
      }
      forall i, j | 0 <= i < |db'.rooms| && 0 <= j < |db'.rooms| && i != j
        ensures db'.rooms[i].id != db'.rooms[j].id
        ensures db'.rooms[i].p1 != db'.rooms[j].p1 || db'.rooms[i].p2 != db'.rooms[j].p2
      {
        if j == |db'.rooms| - 1 {
          assert db'.rooms[i] == db.rooms[i];
          assert RoomOk(db, db.rooms[i]);
        } else if i == |db'.rooms| - 1 {
          assert db'.rooms[j] == db.rooms[j];
          assert RoomOk(db, db.rooms[j]);
        }
      }
      forall m | m in db'.messages ensures HasRoom(db'.rooms, m.room) {
        var x :| x in db.rooms && x.id == m.room;
        assert x in db'.rooms;
      }
    }
  }

  /** Get-or-create is idempotent: once a chat has been started, starting
      it again, from either side, answers 200 with the same room and
      changes nothing. */
  lemma {:induction false} StartChatIdempotent(db: Db, a: UserId, b: UserId, c: UserId, now: int, later: int)
    requires Valid(db) && a in db.users
    requires StartChat(db, a, Parsed(b), now).1.Ok?
    requires c == a || c == b
    ensures var (db1, r1) := StartChat(db, a, Parsed(b), now);
      var d := if c == a then b else a;
      StartChat(db1, c, Parsed(d), later) == (db1, Ok(Started(r1.value.room, false)))
  {
    var (db1, r1) := StartChat(db, a, Parsed(b), now);
    var room := r1.value.room;
    OrderPairSymmetric(a, b);
    StartChatKeepsValid(db, a, Parsed(b), now);
    var k :| 0 <= k < |db1.rooms| && db1.rooms[k] == room;
    var f := FindPair(db1.rooms, room.p1, room.p2);
    assert f.Some?;
    assert db1.rooms[f.value].p1 == db1.rooms[k].p1 && db1.rooms[f.value].p2 == db1.rooms[k].p2;
  }

  /** What `start_private_chat` answers as written. The room serializer
      is built without the request in its context, and rendering it
      calls `get_unread_count`, which reads the request from the context.
      That raises a `KeyError` nothing catches, so every request that
      passes the checks is answered 500, after `get_or_create` has
      already written the room. */
  datatype StartResponse = Refused(error: StartError) | ServerError

  function StartChatAsWritten(db: Db, user: UserId, other: UserIdField, now: int): (r: (Db, StartResponse))
    ensures r.0 == StartChat(db, user, other, now).0
    ensures r.1 == ServerError <==> other.Parsed? && other.id != user && other.id in db.users
    ensures r.1.Refused? ==> StartChat(db, user, other, now).1 == Err(r.1.error)
  {
    var (db', res) := StartChat(db, user, other, now);
    if res.Ok? then (db', ServerError) else (db', Refused(res.error))
  }

  /** The discrepancy, for any two users: a start answers 500, yet the
      room for the pair is stored, and every later start answers 500
      again without changing anything. */
  lemma StartChatAsWrittenFails(db: Db, a: UserId, b: UserId, now: int, later: int)
    requires Valid(db) && a in db.users && b in db.users && a != b
    ensures var (db1, r1) := StartChatAsWritten(db, a, Parsed(b), now);
      var p := OrderPair(a, b);
      && r1 == ServerError
      && FindPair(db1.rooms, p.0, p.1).Some?
      && StartChatAsWritten(db1, a, Parsed(b), later) == (db1, ServerError)
  {
    StartChatIdempotent(db, a, b, a, now, later);
  }

  /** The smallest input that shows it: two users and no rooms. */
  lemma StartChatAsWrittenExample()
    ensures var db := Db({1, 2}, [], [], 1, 1);
      var (db1, r1) := StartChatAsWritten(db, 1, Parsed(2), 0);
      r1 == ServerError && db1.rooms == [Room(1, 1, 2, false, false, 0)]
  {
  }

  // ---------------------------------------------------------------
  // delete_chat_room
  // ---------------------------------------------------------------

  datatype AccessError = RoomNotFound | NotParticipant

  /** The HTTP status each access error is answered with. */
  function AccessStatus(e: AccessError): Status {
    if e == RoomNotFound then NotFound404 else Forbidden403
  }

  datatype DeleteOutcome = Hidden | Destroyed

  /** The messages that do not belong to room `id`, in order. */
  function MessagesOutside(ms: seq<Message>, id: RoomId): (r: seq<Message>)
    ensures forall m :: m in r <==> m in ms && m.room != id
    ensures |r| <= |ms|
  {
    if ms == [] then []
    else if ms[0].room == id then MessagesOutside(ms[1..], id)
    else [ms[0]] + MessagesOutside(ms[1..], id)
  }

  /** `room.delete()`: removes the room at position `i` and, by cascade,
      every message of that room. */
  function DestroyRoom(db: Db, i: nat): (db': Db)
    requires i < |db.rooms|
    ensures db'.rooms == db.rooms[..i] + db.rooms[i + 1..]
    ensures forall m :: m in db'.messages <==> m in db.messages && m.room != db.rooms[i].id
    ensures db'.users == db.users && db'.nextRoomId == db.nextRoomId && db'.nextMessageId == db.nextMessageId
  {
    db.(rooms := db.rooms[..i] + db.rooms[i + 1..], messages := MessagesOutside(db.messages, db.rooms[i].id))
  }

  /** `delete_chat_room`: an unknown room is not found and a
      non-participant is refused, both without change. Otherwise only the
      caller's hidden flag is set; the room (and its messages) is
      destroyed exactly when both flags are then set, and merely hidden
      otherwise. */
  function DeleteRoom(db: Db, user: UserId, id: RoomId): (r: (Db, Result<DeleteOutcome, AccessError>))
    ensures r.1.Err? ==> r.0 == db
    ensures r.1 == Err(RoomNotFound) <==> !HasRoom(db.rooms, id)
    ensures r.1.Err? ==> (AccessStatus(r.1.error) == NotFound404 <==> !HasRoom(db.rooms, id))
    ensures r.1 == Err(NotParticipant) <==>
      HasRoom(db.rooms, id) && var room := db.rooms[FindRoom(db.rooms, id).value];
      user != room.p1 && user != room.p2
    ensures r.1.Ok? ==>
      var i := FindRoom(db.rooms, id).value;
      var room := db.rooms[i];
      var room' := if user == room.p1 then room.(hidden1 := true) else room.(hidden2 := true);
      && (user == room.p1 || user == room.p2)
      && (r.1.value == Destroyed <==> room'.hidden1 && room'.hidden2)
      && (r.1.value == Destroyed ==> r.0 == DestroyRoom(db, i))
      && (r.1.value == Hidden ==> r.0 == db.(rooms := db.rooms[i := Save(room')]))
  {
    match FindRoom(db.rooms, id)
    case None => (db, Err(RoomNotFound))
    case Some(i) =>
      var room := db.rooms[i];
      if user != room.p1 && user != room.p2 then (db, Err(NotParticipant))
      else
        var room' := if user == room.p1 then room.(hidden1 := true) else room.(hidden2 := true);
        if room'.hidden1 && room'.hidden2 then (DestroyRoom(db, i), Ok(Destroyed))
        else (db.(rooms := db.rooms[i := Save(room')]), Ok(Hidden))
  }

  /** `x` is a later state of the stored room `y`: same key, same pair,
      and every hidden flag `y` had is still set. */
  predicate Precedes(y: Room, x: Room) {
    && y.id == x.id && y.p1 == x.p1 && y.p2 == x.p2
    && (y.hidden1 ==> x.hidden1) && (y.hidden2 ==> x.hidden2)
  }

  /** Every room of `after` is a later state of some room of `before`. */
  ghost predicate OnlyRise(before: seq<Room>, after: seq<Room>) {
    forall x :: x in after ==> exists y :: y in before && Precedes(y, x)
  }

  /** Hidden flags only ever go from unset to set: every room left after
      a delete was there before, with the same participants and at least
      the flags it had. */
  lemma DeleteFlagsOnlyRise(db: Db, user: UserId, id: RoomId)
    requires Valid(db)
    ensures OnlyRise(db.rooms, DeleteRoom(db, user, id).0.rooms)
  {
    var (db', r) := DeleteRoom(db, user, id);
    if r.Ok? {
      var i := FindRoom(db.rooms, id).value;
      if r.value == Destroyed {
        SubsetOnlyRise(db.rooms, db'.rooms);
      } else {
        var room := db.rooms[i];
        assert RoomOk(db, room);
        UpdateOnlyRise(db.rooms, i, db'.rooms[i]);
      }
    } else {
      SubsetOnlyRise(db.rooms, db'.rooms);
    }
  }

  lemma SubsetOnlyRise(before: seq<Room>, after: seq<Room>)
    requires forall x :: x in after ==> x in before
    ensures OnlyRise(before, after)
  {
    forall x | x in after ensures exists y :: y in before && Precedes(y, x) {
      assert Precedes(x, x);
    }
  }

  lemma UpdateOnlyRise(rooms: seq<Room>, i: nat, x': Room)
    requires i < |rooms| && Precedes(rooms[i], x')
    ensures OnlyRise(rooms, rooms[i := x'])
  {
    var after := rooms[i := x'];
    forall x | x in after ensures exists y :: y in rooms && Precedes(y, x) {
      var k :| 0 <= k < |after| && after[k] == x;
      if k == i {
        assert Precedes(rooms[i], x);
      } else {
        assert Precedes(rooms[k], x);
      }
    }
  }

  /** Deleting keeps the tables valid: no room is ever stored hidden on
      both sides, and no message outlives its room. */
  lemma {:induction false} DeleteKeepsValid(db: Db, user: UserId, id: RoomId)
    requires Valid(db)
    ensures Valid(DeleteRoom(db, user, id).0)
  {
    var (db', r) := DeleteRoom(db, user, id);
    if r.Ok? {
      var i := FindRoom(db.rooms, id).value;
      if r.value == Destroyed {
        DestroyKeepsValid(db, i);
      } else {
        var room := db.rooms[i];
        var room' := if user == room.p1 then room.(hidden1 := true) else room.(hidden2 := true);
        HideKeepsValid(db, i, Save(room'));
      }
    }
  }

  lemma DestroyKeepsValid(db: Db, i: nat)
    requires Valid(db) && i < |db.rooms|
    ensures Valid(DestroyRoom(db, i))
  {
    var db' := DestroyRoom(db, i);
    RemoveAtKeepsDistinct(db.rooms, i);
    forall x | x in db'.rooms ensures RoomOk(db', x) {
      assert x in db.rooms && RoomOk(db, x);
    }
    forall m | m in db'.messages ensures HasRoom(db'.rooms, m.room) {
      RemoveAtKeepsOtherRooms(db.rooms, i, m.room);
    }
    MessagesOutsideKeepsDistinct(db.messages, db.rooms[i].id);
  }

  lemma RemoveAtKeepsDistinct(rooms: seq<Room>, i: nat)
    requires RoomsDistinct(rooms) && i < |rooms|
    ensures RoomsDistinct(rooms[..i] + rooms[i + 1..])
  {
    var rs := rooms[..i] + rooms[i + 1..];
    forall a, b | 0 <= a < |rs| && 0 <= b < |rs| && a != b
      ensures rs[a].id != rs[b].id && (rs[a].p1 != rs[b].p1 || rs[a].p2 != rs[b].p2)
    {
      var a' := if a < i then a else a + 1;
      var b' := if b < i then b else b + 1;
      assert rs[a] == rooms[a'] && rs[b] == rooms[b'];
    }
  }

  lemma RemoveAtKeepsOtherRooms(rooms: seq<Room>, i: nat, id: RoomId)
    requires RoomsDistinct(rooms) && i < |rooms|
    requires HasRoom(rooms, id) && id != rooms[i].id
    ensures HasRoom(rooms[..i] + rooms[i + 1..], id)
  {
    var x :| x in rooms && x.id == id;
    var k :| 0 <= k < |rooms| && rooms[k] == x;
    var rs := rooms[..i] + rooms[i + 1..];
    if k < i {
      assert rs[k] == x;
    } else {
      assert rs[k - 1] == x;
    }
  }

  lemma HideKeepsValid(db: Db, i: nat, room': Room)
    requires Valid(db) && i < |db.rooms|
    requires room'.id == db.rooms[i].id && room'.p1 == db.rooms[i].p1 && room'.p2 == db.rooms[i].p2
    requires !(room'.hidden1 && room'.hidden2)
    ensures Valid(db.(rooms := db.rooms[i := room']))
  {
    var db' := db.(rooms := db.rooms[i := room']);
    assert RoomOk(db, db.rooms[i]);
    forall x | x in db'.rooms ensures RoomOk(db', x) {
      if x != room' {
        assert x in db.rooms;
      }
    }
    forall m | m in db'.messages ensures HasRoom(db'.rooms, m.room) {
      var x :| x in db.rooms && x.id == m.room;
      var k :| 0 <= k < |db.rooms| && db.rooms[k] == x;
      assert db'.rooms[k].id == x.id;
    }
  }

  /** Dropping the messages of one room keeps message keys distinct. */
  lemma {:induction false} MessagesOutsideKeepsDistinct(ms: seq<Message>, id: RoomId)
    requires KeysDistinct(ms)
    ensures KeysDistinct(MessagesOutside(ms, id))
  {
    if ms != [] {
      var tail := ms[1..];
      TailKeysDistinct(ms);
      MessagesOutsideKeepsDistinct(tail, id);
      var rest := MessagesOutside(tail, id);
      if ms[0].room != id {
        forall m | m in rest ensures m.id != ms[0].id {
          assert m in tail;
          var k :| 0 <= k < |tail| && tail[k] == m;
          assert ms[k + 1] == m;
        }
        ConsKeysDistinct(ms[0], rest);
      }
    }
  }

  lemma TailKeysDistinct(ms: seq<Message>)
    requires KeysDistinct(ms) && ms != []
    ensures KeysDistinct(ms[1..])
  {
    var tail := ms[1..];
    forall i, j | 0 <= i < j < |tail| ensures tail[i].id != tail[j].id {
      assert tail[i] == ms[i + 1] && tail[j] == ms[j + 1];
    }
  }

  lemma ConsKeysDistinct(m: Message, ms: seq<Message>)
    requires KeysDistinct(ms)
    requires forall x :: x in ms ==> x.id != m.id
    ensures KeysDistinct([m] + ms)
  {
    var r := [m] + ms;
    forall i, j | 0 <= i < j < |r| ensures r[i].id != r[j].id {
      assert r[j] == ms[j - 1];
      if i > 0 {
        assert r[i] == ms[i - 1];
      }
    }
  }

  lemma DestroyCascades(db: Db, user: UserId, id: RoomId)
    requires DeleteRoom(db, user, id).1 == Ok(Destroyed)
    ensures forall m :: m in DeleteRoom(db, user, id).0.messages ==> m.room != id
  {
  }

  // ---------------------------------------------------------------
  // get_user_chats
  // ---------------------------------------------------------------

  /** The room is in `u`'s list: `u` is a participant whose side has not
      hidden it. */
  predicate VisibleTo(r: Room, u: UserId): (v: bool)
    ensures v ==> u == r.p1 || u == r.p2
    ensures !r.hidden1 && !r.hidden2 ==> (v <==> u == r.p1 || u == r.p2)
  {
    (r.p1 == u && !r.hidden1) || (r.p2 == u && !r.hidden2)
  }

  /** `get_user_chats`: the rooms visible to `u`, in table order. */
  function UserChats(rooms: seq<Room>, u: UserId): (r: seq<Room>)
    ensures forall x :: x in r <==> x in rooms && VisibleTo(x, u)
    ensures |r| <= |rooms|
  {
    if rooms == [] then []
    else if VisibleTo(rooms[0], u) then [rooms[0]] + UserChats(rooms[1..], u)
    else UserChats(rooms[1..], u)
  }

  /** Starting again a chat one has hidden returns the room but does not
      bring it back into one's list: nothing resets the hidden flag. */
  lemma RestartDoesNotUnhide(db: Db, a: UserId, b: UserId, now: int)
    requires StartChat(db, a, Parsed(b), now).1.Ok?
    requires var room := StartChat(db, a, Parsed(b), now).1.value.room;
      room in db.rooms && !VisibleTo(room, a)
    ensures var (db', r) := StartChat(db, a, Parsed(b), now);
      r.value.room !in UserChats(db'.rooms, a)
  {
  }

  // ---------------------------------------------------------------
  // Read tracking
  // ---------------------------------------------------------------

  /** A message of room `id` that `u` has not read and did not send. */
  predicate UnreadBy(m: Message, id: RoomId, u: UserId) {
    m.room == id && !m.isRead && m.sender != u
  }

  /** The number of messages of room `id`. */
  function RoomSize(ms: seq<Message>, id: RoomId): (n: nat)
    ensures n <= |ms|
  {
    if ms == [] then 0 else (if ms[0].room == id then 1 else 0) + RoomSize(ms[1..], id)
  }

  /** `get_unread_count`: the messages of the room that are unread and
      not sent by the viewer. There are never more than the room holds,
      and none at all when every message of the room was sent by the
      viewer or is read. */
  function UnreadCount(ms: seq<Message>, id: RoomId, u: UserId): (n: nat)
    ensures n <= RoomSize(ms, id)
    ensures n == 0 <==> forall m :: m in ms ==> !UnreadBy(m, id, u)
  {
    if ms == [] then 0
    else (if UnreadBy(ms[0], id, u) then 1 else 0) + UnreadCount(ms[1..], id, u)
  }

  /** The keys of the rooms visible to `u`. */
  function VisibleRoomIds(rooms: seq<Room>, u: UserId): set<RoomId> {
    set r | r in rooms && VisibleTo(r, u) :: r.id
  }

  /** The unread messages not sent by `u` over the rooms in `ids`. */
  function UnreadIn(ms: seq<Message>, ids: set<RoomId>, u: UserId): nat {
    if ms == [] then 0
    else (if ms[0].room in ids && !ms[0].isRead && ms[0].sender != u then 1 else 0) + UnreadIn(ms[1..], ids, u)
  }

  /** `total_unread_count`: the unread messages not sent by `u` over the
      rooms `u` has not hidden. */
  function TotalUnread(db: Db, u: UserId): (n: nat)
    ensures n <= |db.messages|
  {
    UnreadInBound(db.messages, VisibleRoomIds(db.rooms, u), u);
    UnreadIn(db.messages, VisibleRoomIds(db.rooms, u), u)
  }

  lemma {:induction false} UnreadInBound(ms: seq<Message>, ids: set<RoomId>, u: UserId)
    ensures UnreadIn(ms, ids, u) <= |ms|
  {
    if ms != [] {
      UnreadInBound(ms[1..], ids, u);
    }
  }

  /** A user's own messages never count as unread for them, in any room. */
  lemma {:induction false} OwnMessagesNeverUnread(ms: seq<Message>, id: RoomId, u: UserId, extra: seq<Message>)
    requires forall m :: m in extra ==> m.sender == u
    ensures UnreadCount(ms + extra, id, u) == UnreadCount(ms, id, u)
  {
    if ms == [] {
      assert UnreadCount(extra, id, u) == 0;
    } else {
      assert (ms + extra)[1..] == ms[1..] + extra;
      OwnMessagesNeverUnread(ms[1..], id, u, extra);
    }
  }

  /** `room.messages.filter(is_read=False).exclude(sender=u).update(is_read=True)`:
      every unread message of room `id` not sent by `u` becomes read,
      and every other message is left exactly as it was. */
  function MarkRead(ms: seq<Message>, id: RoomId, u: UserId): (r: seq<Message>)
    ensures |r| == |ms|
    ensures forall i :: 0 <= i < |ms| ==>
      (UnreadBy(ms[i], id, u) ==> r[i] == ms[i].(isRead := true))
      && (!UnreadBy(ms[i], id, u) ==> r[i] == ms[i])
  {
    if ms == [] then []
    else [if UnreadBy(ms[0], id, u) then ms[0].(isRead := true) else ms[0]] + MarkRead(ms[1..], id, u)
  }

  /** Marking read twice has no further effect. */
  lemma MarkReadIdempotent(ms: seq<Message>, id: RoomId, u: UserId)
    ensures MarkRead(MarkRead(ms, id, u), id, u) == MarkRead(ms, id, u)
  {
    var once := MarkRead(ms, id, u);
    var twice := MarkRead(once, id, u);
    forall i | 0 <= i < |ms| ensures twice[i] == once[i] {
      assert !UnreadBy(once[i], id, u);
    }
  }

  /** After marking, the reader has nothing unread in that room. */
  lemma MarkReadClearsUnread(ms: seq<Message>, id: RoomId, u: UserId)
    ensures UnreadCount(MarkRead(ms, id, u), id, u) == 0
  {
    var r := MarkRead(ms, id, u);
    forall m | m in r ensures !UnreadBy(m, id, u) {
      var i :| 0 <= i < |r| && r[i] == m;
    }
  }

  /** Marking one room read leaves every other user's and every other
      room's unread count untouched. */
  lemma {:induction false} MarkReadLeavesOthers(ms: seq<Message>, id: RoomId, u: UserId, id2: RoomId, v: UserId)
    requires id2 != id || v == u
    requires v == u ==> id2 != id
    ensures UnreadCount(MarkRead(ms, id, u), id2, v) == UnreadCount(ms, id2, v)
  {
    if ms != [] {
      MarkReadLeavesOthers(ms[1..], id, u, id2, v);
      assert MarkRead(ms, id, u)[1..] == MarkRead(ms[1..], id, u);
    }
  }

  /** Messages newest first (`order_by('-timestamp')`). */
  predicate NewestFirst(ms: seq<Message>) {
    forall i, j :: 0 <= i < j < |ms| ==> ms[i].timestamp >= ms[j].timestamp
  }

  function Insert(m: Message, ms: seq<Message>): (r: seq<Message>)
    requires NewestFirst(ms)
    ensures NewestFirst(r)
    ensures multiset(r) == multiset(ms) + multiset{m}
    ensures forall x :: x in r ==> x == m || x in ms
  {
    if ms == [] || m.timestamp >= ms[0].timestamp then [m] + ms
    else
      var rest := Insert(m, ms[1..]);
      assert ms == [ms[0]] + ms[1..];
      assert forall x :: x in rest ==> x.timestamp <= ms[0].timestamp by {
        forall x | x in rest ensures x.timestamp <= ms[0].timestamp {
          if x != m {
            var k :| 0 <= k < |ms[1..]| && ms[1..][k] == x;
            assert ms[k + 1] == x;
          }
        }
      }
      [ms[0]] + rest
  }

  /** Sorts messages newest first, keeping exactly the same messages. */
  function SortNewestFirst(ms: seq<Message>): (r: seq<Message>)
    ensures NewestFirst(r)
    ensures multiset(r) == multiset(ms)
  {
    if ms == [] then []
    else
      assert ms == [ms[0]] + ms[1..];
      Insert(ms[0], SortNewestFirst(ms[1..]))
  }

  /** The messages of room `id`, in table order. */
  function MessagesOf(ms: seq<Message>, id: RoomId): (r: seq<Message>)
    ensures forall m :: m in r <==> m in ms && m.room == id
    ensures |r| == RoomSize(ms, id)
  {
    if ms == [] then []
    else if ms[0].room == id then [ms[0]] + MessagesOf(ms[1..], id)
    else MessagesOf(ms[1..], id)
  }

  /** `get_user_message`: an unknown room is not found and a
      non-participant is refused, both marking nothing. A participant
      first marks read every unread message sent by the other side, then
      receives all the room's messages, newest first. */
  function GetMessages(db: Db, u: UserId, id: RoomId): (r: (Db, Result<seq<Message>, AccessError>))
    ensures r.1.Err? ==> r.0 == db
    ensures r.1 == Err(RoomNotFound) <==> !HasRoom(db.rooms, id)
    ensures r.1.Err? ==> (AccessStatus(r.1.error) == NotFound404 <==> !HasRoom(db.rooms, id))
    ensures r.1 == Err(NotParticipant) <==>
      HasRoom(db.rooms, id) && var room := db.rooms[FindRoom(db.rooms, id).value];
      u != room.p1 && u != room.p2
    ensures r.1.Ok? ==>
      && r.0 == db.(messages := MarkRead(db.messages, id, u))
      && NewestFirst(r.1.value)
      && (forall m :: m in r.1.value <==> m in r.0.messages && m.room == id)
      && |r.1.value| == RoomSize(db.messages, id)
  {
    match FindRoom(db.rooms, id)
    case None => (db, Err(RoomNotFound))
    case Some(i) =>
      var room := db.rooms[i];
      if u != room.p1 && u != room.p2 then (db, Err(NotParticipant))
      else
        var ms := MarkRead(db.messages, id, u);
        MarkReadKeepsRooms(db.messages, id, u, id);
        var listed := SortNewestFirst(MessagesOf(ms, id));
        assert forall m :: m in listed <==> m in multiset(MessagesOf(ms, id));
        (db.(messages := ms), Ok(listed))
  }

  /** Marking read changes no message's room, so room sizes stay put. */
  lemma {:induction false} MarkReadKeepsRooms(ms: seq<Message>, id: RoomId, u: UserId, id2: RoomId)
    ensures RoomSize(MarkRead(ms, id, u), id2) == RoomSize(ms, id2)
  {
    if ms != [] {
      MarkReadKeepsRooms(ms[1..], id, u, id2);
      assert MarkRead(ms, id, u)[1..] == MarkRead(ms[1..], id, u);
    }
  }

  /** Fetching the messages of a room leaves the reader with an unread
      count of zero for it, and fetching again changes nothing more. */
  lemma FetchClearsUnread(db: Db, u: UserId, id: RoomId)
    requires GetMessages(db, u, id).1.Ok?
    ensures var db' := GetMessages(db, u, id).0;
      && UnreadCount(db'.messages, id, u) == 0
      && GetMessages(db', u, id).0 == db'
  {
    MarkReadClearsUnread(db.messages, id, u);
    MarkReadIdempotent(db.messages, id, u);
  }

  // ---------------------------------------------------------------
  // Per-room and total unread counts agree
  // ---------------------------------------------------------------

  /** The sum of the per-room unread counts over a list of rooms. */
  function SumUnread(ms: seq<Message>, rooms: seq<Room>, u: UserId): nat {
    if rooms == [] then 0 else UnreadCount(ms, rooms[0].id, u) + SumUnread(ms, rooms[1..], u)
  }

  function IdsOf(rooms: seq<Room>): set<RoomId> {
    set r | r in rooms :: r.id
  }

  lemma {:induction false} UnreadInSplit(ms: seq<Message>, ids: set<RoomId>, id: RoomId, u: UserId)
    requires id !in ids
    ensures UnreadIn(ms, ids + {id}, u) == UnreadCount(ms, id, u) + UnreadIn(ms, ids, u)
  {
    if ms != [] {
      UnreadInSplit(ms[1..], ids, id, u);
    }
  }

  lemma {:induction false} UnreadInEmpty(ms: seq<Message>, u: UserId)
    ensures UnreadIn(ms, {}, u) == 0
  {
    if ms != [] {
      UnreadInEmpty(ms[1..], u);
    }
  }

  lemma {:induction false} SumIsUnreadIn(ms: seq<Message>, rooms: seq<Room>, u: UserId)
    requires RoomsDistinct(rooms)
    ensures SumUnread(ms, rooms, u) == UnreadIn(ms, IdsOf(rooms), u)
  {
    if rooms == [] {
      UnreadInEmpty(ms, u);
      assert IdsOf(rooms) == {};
    } else {
      var tail := rooms[1..];
      assert RoomsDistinct(tail) by {
        forall i, j | 0 <= i < |tail| && 0 <= j < |tail| && i != j
          ensures tail[i].id != tail[j].id && (tail[i].p1 != tail[j].p1 || tail[i].p2 != tail[j].p2)
        {
          assert tail[i] == rooms[i + 1] && tail[j] == rooms[j + 1];
        }
      }
      SumIsUnreadIn(ms, tail, u);
      forall x | x in tail ensures x.id != rooms[0].id {
        var k :| 0 <= k < |tail| && tail[k] == x;
        assert rooms[k + 1] == x;
      }
      assert IdsOf(rooms) == IdsOf(tail) + {rooms[0].id} by {
        assert rooms == [rooms[0]] + tail;
      }
      UnreadInSplit(ms, IdsOf(tail), rooms[0].id, u);
    }
  }

  /** The listed rooms of a user keep the table's order, so keys stay
      distinct. */
  lemma {:induction false} UserChatsDistinct(rooms: seq<Room>, u: UserId)
    requires RoomsDistinct(rooms)
    ensures RoomsDistinct(UserChats(rooms, u))
  {
    if rooms != [] {
      var tail := rooms[1..];
      assert RoomsDistinct(tail) by {
        forall i, j | 0 <= i < |tail| && 0 <= j < |tail| && i != j
          ensures tail[i].id != tail[j].id && (tail[i].p1 != tail[j].p1 || tail[i].p2 != tail[j].p2)
        {
          assert tail[i] == rooms[i + 1] && tail[j] == rooms[j + 1];
        }
      }
      UserChatsDistinct(tail, u);
      if VisibleTo(rooms[0], u) {
        var r := UserChats(rooms, u);
        var rest := UserChats(tail, u);
        forall i, j | 0 <= i < |r| && 0 <= j < |r| && i != j
          ensures r[i].id != r[j].id && (r[i].p1 != r[j].p1 || r[i].p2 != r[j].p2)
        {
          if i == 0 || j == 0 {
            var n := if i == 0 then j else i;
            assert r[n] in rest;
            var k :| 0 <= k < |tail| && tail[k] == r[n];
            assert rooms[k + 1] == r[n];
          } else {
            assert r[i] == rest[i - 1] && r[j] == rest[j - 1];
          }
        }
      }
    }
  }

  /** The unread counts shown per room in a user's chat list add up to
      that user's total unread count. */
  lemma SumOfRoomCountsIsTotal(db: Db, u: UserId)
    requires Valid(db)
    ensures SumUnread(db.messages, UserChats(db.rooms, u), u) == TotalUnread(db, u)
  {
    UserChatsDistinct(db.rooms, u);
    SumIsUnreadIn(db.messages, UserChats(db.rooms, u), u);
    assert IdsOf(UserChats(db.rooms, u)) == VisibleRoomIds(db.rooms, u);
  }
}

=== FILE: text.dfy ===
/** The string operations the validators rely on, restricted to ASCII:
    Python's `str.strip`, `str.lower`, `str.isdigit` and the `in`
    substring test. */
module Text {

  /** The ASCII characters Python's `str.isspace` accepts (and so the
      characters `str.strip()` removes): tab, line feed, vertical tab,
      form feed, carriage return, the four information separators and
      space. */
  predicate IsSpace(c: char) {
    c == ' ' || ('\t' <= c <= '\r') || ('\U{1C}' <= c <= '\U{1F}')
  }

  predicate IsDigit(c: char) { '0' <= c <= '9' }

  predicate IsUpper(c: char) { 'A' <= c <= 'Z' }

  predicate IsLower(c: char) { 'a' <= c <= 'z' }

  /** Python's `str.isdigit` on ASCII: non-empty and every character a
      decimal digit. */
  predicate IsDigits(s: string) {
    |s| > 0 && forall i :: 0 <= i < |s| ==> IsDigit(s[i])
  }

  /** `str.lower` on one ASCII character. */
  function LowerChar(c: char): (d: char)
    ensures !IsUpper(d)
    ensures IsUpper(c) ==> IsLower(d) && d as int - 'a' as int == c as int - 'A' as int
    ensures !IsUpper(c) ==> d == c
  {
    if IsUpper(c) then (c as int - 'A' as int + 'a' as int) as char else c
  }

  /** `str.lower` on an ASCII string: same length, no upper-case letter
      left, and every character is its own lower-case form. */
  function Lower(s: string): (r: string)
    ensures |r| == |s|
    ensures forall i :: 0 <= i < |s| ==> r[i] == LowerChar(s[i])
    ensures forall i :: 0 <= i < |r| ==> !IsUpper(r[i])
  {
    if s == [] then [] else [LowerChar(s[0])] + Lower(s[1..])
  }

  /** Python's `str.lstrip()`: the longest suffix that does not start
      with whitespace; everything dropped is whitespace. */
  function TrimStart(s: string): (r: string)
    ensures |r| <= |s| && r == s[|s| - |r|..]
    ensures forall k :: 0 <= k < |s| - |r| ==> IsSpace(s[k])
    ensures r == [] || !IsSpace(r[0])
  {
    if s != [] && IsSpace(s[0]) then TrimStart(s[1..]) else s
  }

  /** Python's `str.rstrip()`: the longest prefix that does not end
      with whitespace; everything dropped is whitespace. */
  function TrimEnd(s: string): (r: string)
    ensures |r| <= |s| && r == s[..|r|]
    ensures forall k :: |r| <= k < |s| ==> IsSpace(s[k])
    ensures r == [] || !IsSpace(r[|r| - 1])
  {
    if s != [] && IsSpace(s[|s| - 1]) then TrimEnd(s[..|s| - 1]) else s
  }

  /** `r` is the slice of `s` starting at `i`, and everything of `s`
      outside that slice is whitespace. */
  predicate StrippedAt(s: string, r: string, i: nat) {
    && i + |r| <= |s|
    && r == s[i..i + |r|]
    && (forall k :: 0 <= k < i ==> IsSpace(s[k]))
    && (forall k :: i + |r| <= k < |s| ==> IsSpace(s[k]))
  }

  /** How many whitespace characters `s` starts with. */
  function LeadingSpace(s: string): nat {
    |s| - |TrimStart(s)|
  }

  /** Python's `str.strip()`: a contiguous slice of the input, neither
      starting nor ending with whitespace, with only whitespace cut off
      on either side. */
  function Strip(s: string): (r: string)
    ensures |r| <= |s|
    ensures StrippedAt(s, r, LeadingSpace(s))
    ensures r == [] || (!IsSpace(r[0]) && !IsSpace(r[|r| - 1]))
  {
    var t := TrimStart(s);
    var r := TrimEnd(t);
    SliceOfSlice(s, t, r, LeadingSpace(s));
    r
  }

  /** Cutting whitespace off the end of a suffix that follows only
      whitespace leaves a stripped slice. */
  lemma SliceOfSlice(s: string, t: string, r: string, i: nat)
    requires i <= |s| && t == s[i..] && forall k :: 0 <= k < i ==> IsSpace(s[k])
    requires |r| <= |t| && r == t[..|r|] && forall k :: |r| <= k < |t| ==> IsSpace(t[k])
    ensures StrippedAt(s, r, i)
  {
    assert r == s[i..i + |r|];
    forall k | i + |r| <= k < |s| ensures IsSpace(s[k]) {
      assert s[k] == t[k - i];
    }
  }

  /** Python's `needle in hay` on strings. */
  predicate Contains(hay: string, needle: string) {
    exists i | 0 <= i <= |hay| - |needle| :: OccursAt(hay, needle, i)
  }

  /** `needle` occurs in `hay` starting at index `i`. */
  predicate OccursAt(hay: string, needle: string, i: int) {
    0 <= i <= |hay| - |needle| && hay[i..i + |needle|] == needle
  }

  /** `needle.lower() in hay.lower()`. */
  predicate ContainsIgnoringCase(hay: string, needle: string) {
    Contains(Lower(hay), Lower(needle))
  }

  /** Django's `iexact` lookup, restricted to ASCII. */
  predicate EqualsIgnoringCase(a: string, b: string) {
    Lower(a) == Lower(b)
  }

  /** A string strips to the empty string exactly when it is all
      whitespace. */
  lemma StripEmptyIffAllSpace(s: string)
    ensures Strip(s) == [] <==> forall k :: 0 <= k < |s| ==> IsSpace(s[k])
  {
    if Strip(s) == [] {
      assert StrippedAt(s, [], LeadingSpace(s));
    } else {
      var r := Strip(s);
      assert s[LeadingSpace(s)] == r[0];
    }
  }

  /** Stripping an already stripped string changes nothing. */
  lemma StripIdempotent(s: string)
    ensures Strip(Strip(s)) == Strip(s)
  {
    var r := Strip(s);
    if r != [] {
      assert TrimStart(r) == r;
      assert TrimEnd(r) == r;
    }
  }

  /** Lower-casing twice is lower-casing once. */
  lemma LowerIdempotent(s: string)
    ensures Lower(Lower(s)) == Lower(s)
  {
    assert forall i :: 0 <= i < |s| ==> Lower(Lower(s))[i] == Lower(s)[i];
  }

  /** The empty string is contained in every string, so a rule of the
      form `x.lower() in password.lower()` always fires on an empty `x`. */
  lemma EmptyIsContained(hay: string)
    ensures ContainsIgnoringCase(hay, [])
  {
    assert OccursAt(Lower(hay), Lower([]), 0);
  }
}
